=== FILE: README.md ===
# Clinic record store: a Dafny model

This project models the core of a clinic's record system. The system keeps
six tables: patients, doctors, examinations, medical histories, medical
images and prescriptions. It has three layers:

- the **entity store**: the database context with its relational rules
  (a unique national id per patient, the widths of the string columns,
  restrict-delete on a doctor, cascade delete from a patient and from an
  examination), together with the
  mutating half of the generic repository (add, full-record update,
  delete);
- the **repositories**: read-only queries such as filtering by a foreign
  key, newest-first ordering by a date column, active conditions,
  case-insensitive last-name search and national-id lookup;
- the **six domain services** (patient, doctor, examination, medical
  history, prescription, medical image). Each one validates a record with
  an ordered chain of rules, then reads or changes the store, and answers
  with an `Outcome`.

The `Outcome` kinds stand for the exceptions the services throw:

| Outcome | Exception |
|---|---|
| `NotFound` | `KeyNotFoundException` |
| `Invalid(rule)` | `ArgumentException`, naming the first broken rule |
| `Conflict` | `InvalidOperationException` |
| `Unimplemented` | `NotImplementedException` |
| `FileMissing` | `FileNotFoundException` |
| `StoreFailure` | a `DbUpdateException` that the repository lets through |

Layout, one module per file:

- `outcomes.dfy`: the outcome kinds and the generic ordered rule chain
  `FirstFailure`.
- `text.dfy`: blank test, digits, lower-casing, substring search.
- `dates.dfy`: `DateTime` as a valid calendar date plus a time of day. It
  orders instants through an ordinal that is proved to agree with calendar
  order, and has `AddYears` with its 29 February clamp.
- `records.dfy`: the six record shapes and the widths of their string
  columns.
- `tabular.dfy`: tables as maps from id to row. Store order is ascending
  id, `Where` filters, and `OrderByDescending` is a stable insertion sort
  proved to be a sorted permutation.
- `repository.dfy` and the six `*_repository.dfy` files: the queries.
- `store.dfy`: the `MedicalStore` class. It has six table fields and six
  identity counters. Its invariant `Valid` says that every row is keyed by
  its id, national ids are unique, every foreign key resolves and every id
  is below its counter.
- `patient_model.dfy`: `Patient.Age` and the field constraints declared on
  `Patient`.
- The six `*_service.dfy` files: each holds the service's validator and a
  class that owns the store.

Clock readings (`now`), the outcome of a write race (`raced`), the fresh
name token (`Guid.NewGuid`) and the set of files in the upload directory
are parameters or fields. They are not read from the environment.

## Model

| member | source | states |
|---|---|---|
| Outcomes.FirstFailure | MedicalSystem.Core/Services/IPatientService.cs:101-122 | A validator passes exactly when every rule in its list holds; a failure names a broken rule, and every rule before it holds |
| Outcomes.FirstFailureIsFirst | MedicalSystem.Core/Services/IPatientService.cs:101-122 | When rule k is broken and all earlier rules hold, rule k is the one reported |
| Text.ToLower | MedicalSystem.Infrastructure/Repositories/PatientRepository.cs:17 | Lower-casing keeps the length, maps every character on its own, and leaves no upper-case ASCII letter |
| Text.ToLowerIdempotent | MedicalSystem.Infrastructure/Repositories/PatientRepository.cs:17 | Lower-casing a lower-cased string changes nothing |
| Text.ContainsIffOccursAt | MedicalSystem.Infrastructure/Repositories/PatientRepository.cs:17 | `Contains` holds exactly when the needle occurs at some position of the string |
| Dates.DaysInMonth | MedicalSystem.Core/Models/Patient.cs:49 | Every month has 28 to 31 days |
| Dates.DayOrdinalIsChronological | MedicalSystem.Core/Models/Patient.cs:49 | Day numbers order valid dates as the calendar does and tell distinct dates apart |
| Dates.OrdinalIsChronological | MedicalSystem.Core/Services/IExaminationService.cs:107-108 | Instant ordinals order `DateTime` values as the calendar does, so every `<`/`>` comparison of the source is a comparison of integers |
| Dates.AddYearsToDate | MedicalSystem.Core/Models/Patient.cs:49-50 | `AddYears` keeps month and day and moves the year by n, except that 29 February becomes 28 February in a common year |
| Dates.AddYears | MedicalSystem.Core/Models/Patient.cs:49 | `today.AddYears(-age)` moves the instant n years, keeps the month and the time of day, and keeps the day except that 29 February may become 28 February |
| Dates.AddYearsIsLater | MedicalSystem.Core/Services/IExaminationService.cs:107 | Adding a positive number of years gives a strictly later instant |
| Tabular.SortedKeys | MedicalSystem.Infrastructure/Repositories/Repository.cs:19-22 | The ids of a table, each once, strictly ascending |
| Tabular.Rows | MedicalSystem.Infrastructure/Repositories/Repository.cs:19-22 | GetAll: one row per stored id, every stored row present |
| Tabular.Where | MedicalSystem.Infrastructure/Repositories/Repository.cs:29-32 | The sub-table holds exactly the ids whose row satisfies the predicate, with the same rows |
| Tabular.WhereRows | MedicalSystem.Infrastructure/Repositories/Repository.cs:29-32 | A row is in the filtered table exactly when it is in the table and satisfies the predicate |
| Tabular.InRowsIffRowOf | MedicalSystem.Infrastructure/Repositories/Repository.cs:19-22 | A row appears in GetAll's list exactly when it is stored |
| Tabular.InsertDescendingPermutes | MedicalSystem.Infrastructure/Repositories/ExaminationRepository.cs:20-21 | Inserting a row into a list adds exactly that row: the multiset of rows grows by it and nothing else changes |
| Tabular.InsertDescendingSorted | MedicalSystem.Infrastructure/Repositories/ExaminationRepository.cs:20-21 | Inserting into a list sorted newest first keeps it sorted newest first |
| Tabular.SortDescending | MedicalSystem.Infrastructure/Repositories/ExaminationRepository.cs:20-21 | `OrderByDescending` returns a permutation of its input, sorted by non-increasing key |
| Tabular.SortedRowsExactly | MedicalSystem.Infrastructure/Repositories/ExaminationRepository.cs:14-23 | Sorting the rows of a sub-table neither adds nor loses a row |
| Tabular.OrderedWhere | MedicalSystem.Infrastructure/Repositories/ExaminationRepository.cs:14-23 | `Where` then `OrderByDescending`: exactly the matching rows, one per id, in non-increasing key order |
| Tabular.OrderedByDate | MedicalSystem.Infrastructure/Repositories/PrescriptionRepository.cs:14-22 | The same for a `DateTime` column: no row is earlier than a row after it |
| Tabular.AllByDate | MedicalSystem.Infrastructure/Repositories/ExaminationRepository.cs:47-54 | Every row of the table exactly once, as many as the table holds, no row earlier than a row after it |
| Repository.GetById | MedicalSystem.Infrastructure/Repositories/Repository.cs:24-27 | The row stored under the id, and nothing exactly when no row has that id |
| Repository.Find | MedicalSystem.Infrastructure/Repositories/Repository.cs:29-32 | Exactly the stored rows that satisfy the predicate, one per matching id |
| Repository.Exists | MedicalSystem.Infrastructure/Repositories/Repository.cs:84-87 | Holds exactly when GetById finds a row |
| Repository.Count | MedicalSystem.Infrastructure/Repositories/Repository.cs:89-94 | Without a predicate, the number of rows; with one, the number of rows Find returns for it |
| Store.ExaminationCascadeExact | MedicalSystem.Infrastructure/MedicalSystemDbContext.cs:65-75 | Deleting an examination keeps the store consistent: an image or prescription survives exactly when its examination does, and patients, doctors and histories are untouched |
| Store.ExaminationCascade | MedicalSystem.Infrastructure/MedicalSystemDbContext.cs:65-75 | After deleting an examination, no examination, image or prescription that is left names it |
| Store.PatientCascadeExact | MedicalSystem.Infrastructure/MedicalSystemDbContext.cs:46-62 | Deleting a patient keeps the store consistent: their examinations, histories and prescriptions go, and so do the images and prescriptions of those examinations; doctors, the other patients and every row not depending on the patient stay |
| Store.PatientCascadeConsistent | MedicalSystem.Infrastructure/MedicalSystemDbContext.cs:46-62 | The patient cascade only removes rows and leaves every remaining foreign key resolved |
| Store.PatientCascade | MedicalSystem.Infrastructure/MedicalSystemDbContext.cs:46-62 | After deleting a patient, the patient is gone, no examination, history or prescription that is left names them, and the doctors are untouched |
| Store.ExaminationInsertConsistent | MedicalSystem.Infrastructure/MedicalSystemDbContext.cs:33-62 | An examination whose patient and doctor are stored can be inserted under a fresh id without breaking the invariant |
| Store.HistoryInsertConsistent | MedicalSystem.Infrastructure/MedicalSystemDbContext.cs:46-50 | A history whose patient is stored can be inserted under a fresh id without breaking the invariant |
| Store.ImageInsertConsistent | MedicalSystem.Infrastructure/MedicalSystemDbContext.cs:65-69 | An image whose examination is stored can be inserted under a fresh id without breaking the invariant |
| Store.PrescriptionInsertConsistent | MedicalSystem.Infrastructure/MedicalSystemDbContext.cs:39-75 | A prescription whose examination, patient and doctor are stored can be inserted under a fresh id without breaking the invariant |
| Store.MedicalStore.constructor | MedicalSystem.Infrastructure/MedicalSystemDbContext.cs:20-30 | An empty store satisfies the invariant, and every identity starts at 1 |
| Store.MedicalStore.AddPatient | MedicalSystem.Infrastructure/MedicalSystemDbContext.cs:27 | A national id that is already held, or a name, national id or gender longer than its column (100, 11, 1), makes the insert fail: no row is stored, but the identity value drawn for it is used up; otherwise exactly one patient is added, under a fresh id, and the invariant holds |
| Store.MedicalStore.AddDoctor | MedicalSystem.Infrastructure/Repositories/Repository.cs:34-39 | A name or specialisation longer than its 100-character column makes the insert fail: no row is stored, but the identity value drawn for it is used up; otherwise exactly one doctor is added, under the next id, and the other tables are unchanged |
| Store.MedicalStore.AddExamination | MedicalSystem.Infrastructure/Repositories/Repository.cs:34-39 | A dangling patient or doctor makes the insert fail: no row is stored, but the identity value drawn for it is used up; otherwise exactly one examination is added, under the next id |
| Store.MedicalStore.AddHistory | MedicalSystem.Infrastructure/Repositories/Repository.cs:34-39 | A dangling patient or a disease name over 200 characters makes the insert fail: no row is stored, but the identity value drawn for it is used up; otherwise exactly one history is added, under the next id |
| Store.MedicalStore.AddImage | MedicalSystem.Infrastructure/Repositories/Repository.cs:34-39 | A dangling examination, a file name over 255 or a file type over 50 characters makes the insert fail: no row is stored, but the identity value drawn for it is used up; otherwise exactly one image is added, under the next id |
| Store.MedicalStore.AddPrescription | MedicalSystem.Infrastructure/Repositories/Repository.cs:34-39 | A dangling patient, doctor or examination, a medication over 200 or a dosage over 100 characters makes the insert fail: no row is stored, but the identity value drawn for it is used up; otherwise exactly one prescription is added, under the next id |
| Store.MedicalStore.UpdatePatient | MedicalSystem.Infrastructure/Repositories/Repository.cs:41-76 | Absent id gives NotFound; a lost race, a value longer than its column or a national id held by another patient gives Conflict; success happens exactly otherwise and replaces that one record; a failure changes nothing |
| Store.MedicalStore.UpdateDoctor | MedicalSystem.Infrastructure/Repositories/Repository.cs:41-76 | Absent id gives NotFound; a lost race or a value longer than its column gives Conflict; success happens exactly otherwise, replaces the whole doctor record and nothing else changes |
| Store.MedicalStore.UpdateExamination | MedicalSystem.Infrastructure/Repositories/Repository.cs:41-76 | NotFound for an absent id; Conflict for a lost race or a dangling key; otherwise the record is replaced and nothing else changes |
| Store.MedicalStore.UpdateHistory | MedicalSystem.Infrastructure/Repositories/Repository.cs:41-76 | NotFound for an absent id; Conflict for a lost race, a dangling key or a disease name longer than its column; success exactly otherwise, replacing the record and nothing else |
| Store.MedicalStore.UpdatePrescription | MedicalSystem.Infrastructure/Repositories/Repository.cs:41-76 | NotFound for an absent id; Conflict for a lost race, a dangling key or a medication or dosage longer than its column; success exactly otherwise, replacing the record and nothing else |
| Store.MedicalStore.DeletePatient | MedicalSystem.Infrastructure/MedicalSystemDbContext.cs:46-62 | Removes the patient with the full patient cascade and keeps the invariant; a missing row makes the save fail and nothing changes |
| Store.MedicalStore.DeleteDoctor | MedicalSystem.Infrastructure/MedicalSystemDbContext.cs:33-43 | A doctor still named by an examination or prescription is not removed (restrict); otherwise exactly that doctor goes |
| Store.MedicalStore.DeleteExamination | MedicalSystem.Infrastructure/MedicalSystemDbContext.cs:65-75 | Removes the examination with its images and prescriptions and keeps the invariant |
| Store.MedicalStore.DeleteHistory | MedicalSystem.Infrastructure/Repositories/Repository.cs:78-82 | After the delete, the history's id is absent and nothing else changed |
| Store.MedicalStore.DeleteImage | MedicalSystem.Infrastructure/Repositories/Repository.cs:78-82 | After the delete, the image's id is absent and nothing else changed |
| Store.MedicalStore.DeletePrescription | MedicalSystem.Infrastructure/Repositories/Repository.cs:78-82 | After the delete, the prescription's id is absent and nothing else changed |
| PatientRepository.SearchByLastName | MedicalSystem.Infrastructure/Repositories/PatientRepository.cs:14-19 | Exactly the stored patients whose lower-cased last name contains the lower-cased query, each once (the count equals the number of matching ids) |
| PatientRepository.SearchIgnoresQueryCase | MedicalSystem.Infrastructure/Repositories/PatientRepository.cs:14-19 | A query and its lower-cased form find the same patients |
| PatientRepository.SearchFindsOccurrence | MedicalSystem.Infrastructure/Repositories/PatientRepository.cs:14-19 | A query occurring in a stored last name, ignoring case, finds that patient |
| PatientRepository.ByNationalId | MedicalSystem.Infrastructure/Repositories/PatientRepository.cs:21-25 | A stored patient holding exactly that id string, and nothing exactly when nobody holds it |
| PatientRepository.ByNationalIdFindsTheHolder | MedicalSystem.Infrastructure/Repositories/PatientRepository.cs:21-25 | With unique national ids, the lookup returns the one holder |
| PatientRepository.ByNationalIdHeldByOther | MedicalSystem.Core/Services/IPatientService.cs:85-89 | The service's test "the lookup finds a patient with another id" holds exactly when another patient holds the national id |
| PatientRepository.WithFullDetails | MedicalSystem.Infrastructure/Repositories/PatientRepository.cs:27-38 | Nothing exactly when the id is absent; otherwise the patient with exactly their histories, examinations, the images of those examinations and their prescriptions, each listed once |
| PatientRepository.FullDetailsAreCascaded | MedicalSystem.Infrastructure/MedicalSystemDbContext.cs:46-62 | Deleting the patient removes every row their full record shows |
| DoctorRepository.DetailsOf | MedicalSystem.Infrastructure/Repositories/DoctorRepository.cs:24-32 | A doctor's examinations and prescriptions are exactly the stored ones naming the doctor's id, each listed once |
| DoctorRepository.WithDetails | MedicalSystem.Infrastructure/Repositories/DoctorRepository.cs:24-32 | Nothing exactly when no doctor has the id; otherwise that doctor's details |
| DoctorRepository.WithExaminations | MedicalSystem.Infrastructure/Repositories/DoctorRepository.cs:14-22 | As many entries as stored doctors, each a stored doctor with exactly their examinations and prescriptions |
| DoctorRepository.EveryDoctorListed | MedicalSystem.Infrastructure/Repositories/DoctorRepository.cs:14-22 | No stored doctor is missing from the list, so with the count every doctor appears once |
| DoctorRepository.DetailsShowRestriction | MedicalSystem.Infrastructure/MedicalSystemDbContext.cs:33-43 | The details show an examination or a prescription exactly when the restrict rule protects the doctor |
| DoctorRepository.ExaminationsShowReference | MedicalSystem.Infrastructure/MedicalSystemDbContext.cs:33-43 | The details list an examination exactly when some stored examination names the doctor |
| DoctorRepository.PrescriptionsShowReference | MedicalSystem.Infrastructure/MedicalSystemDbContext.cs:33-43 | The details list a prescription exactly when some stored prescription names the doctor |
| ExaminationRepository.ByPatient | MedicalSystem.Infrastructure/Repositories/ExaminationRepository.cs:14-23 | Exactly the patient's examinations, one per id, latest first |
| ExaminationRepository.ByDoctor | MedicalSystem.Infrastructure/Repositories/ExaminationRepository.cs:25-34 | Exactly the doctor's examinations, each once, latest first |
| ExaminationRepository.All | MedicalSystem.Infrastructure/Repositories/ExaminationRepository.cs:47-54 | Every examination once, latest first |
| ExaminationRepository.WithDetails | MedicalSystem.Infrastructure/Repositories/ExaminationRepository.cs:36-45 | Nothing exactly when the id is absent; otherwise the examination with exactly its images and prescriptions, each listed once |
| ExaminationRepository.DetailsAreCascaded | MedicalSystem.Infrastructure/MedicalSystemDbContext.cs:65-75 | Deleting the examination removes every row its details show, and nothing else |
| MedicalHistoryRepository.PatientHistory | MedicalSystem.Infrastructure/Repositories/MedicalHistoryRepository.cs:14-21 | Exactly the patient's histories, each once, latest start first |
| MedicalHistoryRepository.ActiveConditions | MedicalSystem.Infrastructure/Repositories/MedicalHistoryRepository.cs:23-30 | Exactly the patient's histories without an end date, each once, latest start first |
| MedicalHistoryRepository.All | MedicalSystem.Infrastructure/Repositories/MedicalHistoryRepository.cs:32-38 | Every history once, latest start first |
| MedicalHistoryRepository.ActiveIsOpenHistory | MedicalSystem.Infrastructure/Repositories/MedicalHistoryRepository.cs:14-30 | The active conditions are exactly the open entries of the patient's history |
| MedicalImageRepository.ByExamination | MedicalSystem.Infrastructure/Repositories/MedicalImageRepository.cs:14-21 | Exactly the examination's images, each once, latest upload first |
| MedicalImageRepository.All | MedicalSystem.Infrastructure/Repositories/MedicalImageRepository.cs:23-29 | Every image once, latest upload first |
| PrescriptionRepository.ByPatient | MedicalSystem.Infrastructure/Repositories/PrescriptionRepository.cs:14-22 | Exactly the patient's prescriptions, each once, latest first |
| PrescriptionRepository.ByDoctor | MedicalSystem.Infrastructure/Repositories/PrescriptionRepository.cs:24-32 | Exactly the prescriptions the doctor wrote, each once, latest first |
| PrescriptionRepository.All | MedicalSystem.Infrastructure/Repositories/PrescriptionRepository.cs:34-42 | Every prescription once, latest first |
| PatientModel.AgeIsCompletedYears | MedicalSystem.Core/Models/Patient.cs:43-53 | Age is the year difference, less one when this year's birthday (by month and day) has not been reached; the 29 February clamp never changes the answer |
| PatientModel.NegativeAgeIffBornLater | MedicalSystem.Core/Models/Patient.cs:43-53 | Age is negative exactly when the birth date lies after today, so it is never negative for a past birth date |
| PatientModel.Age | MedicalSystem.Core/Models/Patient.cs:43-53 | Age is the difference of the years, or one less than it |
| PatientModel.LeapDayBirthday | MedicalSystem.Core/Models/Patient.cs:49-50 | Someone born on 29 February 2000 is 0 on 28 February 2001, 1 on 1 March 2001 and 4 on 29 February 2004 |
| PatientModel.NationalIdChecksMatchDeclaration | MedicalSystem.Core/Models/Patient.cs:24-29 | The service's checks (not blank, eleven characters, all digits) accept exactly the declared eleven-digit format |
| PatientModel.ServiceGenderAcceptsSubstrings | MedicalSystem.Core/Services/IPatientService.cs:121-122 | The service's gender check accepts exactly the eleven substrings of "MFmf", the empty string included |
| PatientModel.ServiceGenderAccepts | MedicalSystem.Core/Services/IPatientService.cs:121-122 | A gender that passes `"MFmf".Contains` has at most four characters, each one of M, F, m and f |
| PatientModel.GenderChecksCompared | MedicalSystem.Core/Models/Patient.cs:36-40 | Every declared-valid gender passes the service; "" and "MF" pass the service but not the declaration; "FM" and "X" pass neither |
| PatientModel.LongNamePassesService | MedicalSystem.Core/Models/Patient.cs:14-22 | A 101-character name passes the service's not-blank check but not the declared 100-character limit |
| PatientService.ValidatePatient | MedicalSystem.Core/Services/IPatientService.cs:101-123 | A patient passes exactly when both names are present, the national id is eleven digits, the birth date is strictly before now and the gender is a substring of "MFmf"; a failure names a broken rule |
| PatientService.BornNowIsRefused | MedicalSystem.Core/Services/IPatientService.cs:118-119 | A birth date equal to now is refused as not in the past |
| PatientService.BlankFirstNameReportedFirst | MedicalSystem.Core/Services/IPatientService.cs:106-107 | A blank first name is reported whatever the other fields hold |
| PatientService.TenDigitIdReportedAsLength | MedicalSystem.Core/Services/IPatientService.cs:112-116 | A ten-digit national id passes the required rule and is reported as not eleven digits |
| PatientService.EmptyGenderPasses | MedicalSystem.Core/Services/IPatientService.cs:121-122 | An otherwise valid patient with an empty gender passes |
| PatientService.PatientService.GetAllPatients | MedicalSystem.Core/Services/IPatientService.cs:27-30 | Every stored patient, once each |
| PatientService.PatientService.GetPatientById | MedicalSystem.Core/Services/IPatientService.cs:32-38 | The stored patient, or NotFound exactly when the id is absent |
| PatientService.PatientService.GetPatientWithFullDetails | MedicalSystem.Core/Services/IPatientService.cs:40-46 | NotFound exactly when the id is absent; otherwise the repository's full record |
| PatientService.PatientService.GetPatientByPersonalIdNumber | MedicalSystem.Core/Services/IPatientService.cs:48-54 | NotFound when nobody holds the id; otherwise the one holder |
| PatientService.PatientService.SearchPatientsByLastName | MedicalSystem.Core/Services/IPatientService.cs:56-62 | A blank query is Invalid without reading the store; otherwise exactly the patients whose last name contains the query, ignoring case, each once |
| PatientService.PatientService.CreatePatient | MedicalSystem.Core/Services/IPatientService.cs:64-74 | Invalid with the first broken rule, then Conflict when the national id is held, each leaving the store unchanged, then a store failure when a value is longer than its column, which stores no row but uses up one patient identity; otherwise exactly one patient is added under the next identity value, and the patient sequence moves on by one |
| PatientService.PatientService.UpdatePatient | MedicalSystem.Core/Services/IPatientService.cs:76-90 | Validation comes before the existence check, so an invalid record with an unknown id is Invalid; Conflict exactly when another patient holds the national id, a value is longer than its column or the write races; keeping one's own national id succeeds |
| PatientService.PatientService.DeletePatient | MedicalSystem.Core/Services/IPatientService.cs:92-99 | NotFound for an unknown id; otherwise the patient and everything depending on them is removed |
| DoctorService.ValidateDoctor | MedicalSystem.Core/Services/IDoctorService.cs:83-96 | A doctor passes exactly when first name, last name and specialization are all non-blank |
| DoctorService.DoctorRulesReportedInOrder | MedicalSystem.Core/Services/IDoctorService.cs:83-96 | The first blank field, in the order first name, last name, specialization, is the one reported |
| DoctorService.DoctorService.GetAllDoctors | MedicalSystem.Core/Services/IDoctorService.cs:26-29 | Every stored doctor, once each |
| DoctorService.DoctorService.GetDoctorById | MedicalSystem.Core/Services/IDoctorService.cs:31-37 | The stored doctor, or NotFound exactly when the id is absent |
| DoctorService.DoctorService.GetDoctorWithDetails | MedicalSystem.Core/Services/IDoctorService.cs:39-45 | NotFound exactly when the id is absent; otherwise the doctor with exactly their examinations and prescriptions |
| DoctorService.DoctorService.GetDoctorsWithExaminations | MedicalSystem.Core/Services/IDoctorService.cs:47-50 | Every stored doctor once, each with their details |
| DoctorService.DoctorService.CreateDoctor | MedicalSystem.Core/Services/IDoctorService.cs:52-56 | An invalid doctor never touches the store; a valid one whose values fit their columns is added under the next identity value, which moves the doctor sequence on by one, and one that does not is a store failure that stores no row but uses up one doctor identity |
| DoctorService.DoctorService.UpdateDoctor | MedicalSystem.Core/Services/IDoctorService.cs:58-67 | Validation first, then NotFound for an absent id, then Conflict for a lost race or a value longer than its column; otherwise the record is replaced |
| DoctorService.DoctorService.DeleteDoctor | MedicalSystem.Core/Services/IDoctorService.cs:69-81 | NotFound for an absent id; Conflict, with the doctor kept, while any examination or prescription names them; otherwise exactly that doctor is removed |
| ExaminationService.ValidateExamination | MedicalSystem.Core/Services/IExaminationService.cs:102-122 | An examination passes exactly when it is no later than one year after now, has notes, and names a stored patient and a stored doctor |
| ExaminationService.ExactlyOneYearAheadAccepted | MedicalSystem.Core/Services/IExaminationService.cs:107-108 | An examination exactly one year after now is accepted |
| ExaminationService.TooFarAheadReportedFirst | MedicalSystem.Core/Services/IExaminationService.cs:107-111 | A date beyond one year ahead is reported before blank notes or unknown references |
| ExaminationService.UnknownPatientReportedBeforeDoctor | MedicalSystem.Core/Services/IExaminationService.cs:113-121 | An unknown patient is reported as Invalid, ahead of an unknown doctor |
| ExaminationService.ExaminationService.GetAllExaminations | MedicalSystem.Core/Services/IExaminationService.cs:34-37 | Every examination once, latest first |
| ExaminationService.ExaminationService.GetExaminationById | MedicalSystem.Core/Services/IExaminationService.cs:39-45 | The stored examination, or NotFound exactly when the id is absent |
| ExaminationService.ExaminationService.GetExaminationWithDetails | MedicalSystem.Core/Services/IExaminationService.cs:47-53 | NotFound exactly when the id is absent; otherwise the repository's details |
| ExaminationService.ExaminationService.GetExaminationsByPatient | MedicalSystem.Core/Services/IExaminationService.cs:55-62 | NotFound for an unknown patient; otherwise exactly their examinations, each once, latest first |
| ExaminationService.ExaminationService.GetExaminationsByDoctor | MedicalSystem.Core/Services/IExaminationService.cs:64-71 | NotFound for an unknown doctor; otherwise exactly their examinations, each once, latest first |
| ExaminationService.ExaminationService.CreateExamination | MedicalSystem.Core/Services/IExaminationService.cs:73-79 | Invalid with the store unchanged, or exactly one examination added under the next identity value with its date as given, the examination sequence moving on by one |
| ExaminationService.ExaminationService.UpdateExamination | MedicalSystem.Core/Services/IExaminationService.cs:81-91 | An unknown id is NotFound even for an invalid record; then validation, then Conflict for a lost race; otherwise the record is replaced |
| ExaminationService.ExaminationService.DeleteExamination | MedicalSystem.Core/Services/IExaminationService.cs:93-100 | NotFound for an unknown id; otherwise the examination goes with its images and prescriptions |
| MedicalHistoryService.ValidateHistory | MedicalSystem.Core/Services/IMedicalHistoryService.cs:96-121 | A history passes exactly when it names a disease and a stored patient, starts no later than now and, if ended, ended no later than now and no earlier than it started |
| MedicalHistoryService.AllHistoryRulesHold | MedicalSystem.Core/Services/IMedicalHistoryService.cs:96-121 | All five rules hold exactly when the history meets the five conditions together |
| MedicalHistoryService.AcceptedPeriodIsOrdered | MedicalSystem.Core/Services/IMedicalHistoryService.cs:110-120 | An accepted history has start no later than end and end no later than now |
| MedicalHistoryService.EndOnStartAccepted | MedicalSystem.Core/Services/IMedicalHistoryService.cs:118-119 | A condition that ended when it started is accepted |
| MedicalHistoryService.ReversedPeriodReported | MedicalSystem.Core/Services/IMedicalHistoryService.cs:113-120 | An end before a past start is reported as such, not as an end in the future |
| MedicalHistoryService.MedicalHistoryService.GetAllMedicalHistories | MedicalSystem.Core/Services/IMedicalHistoryService.cs:30-33 | Every history once, latest start first |
| MedicalHistoryService.MedicalHistoryService.GetMedicalHistoryById | MedicalSystem.Core/Services/IMedicalHistoryService.cs:35-41 | The stored history, or NotFound exactly when the id is absent |
| MedicalHistoryService.MedicalHistoryService.GetPatientHistory | MedicalSystem.Core/Services/IMedicalHistoryService.cs:43-50 | NotFound for an unknown patient; otherwise exactly their histories, latest start first |
| MedicalHistoryService.MedicalHistoryService.GetActiveConditions | MedicalSystem.Core/Services/IMedicalHistoryService.cs:52-59 | NotFound for an unknown patient; otherwise exactly their open histories, latest start first |
| MedicalHistoryService.MedicalHistoryService.CreateMedicalHistory | MedicalSystem.Core/Services/IMedicalHistoryService.cs:61-70 | Invalid with the store unchanged; a disease name longer than its column is a store failure that stores no row but uses up one history identity; otherwise exactly one history is added under the next identity value, the history sequence moves on by one, and an absent end date stays absent |
| MedicalHistoryService.MedicalHistoryService.UpdateMedicalHistory | MedicalSystem.Core/Services/IMedicalHistoryService.cs:72-85 | An unknown id is NotFound before any validation; then Invalid, then Conflict for a lost race or a disease name longer than its column; otherwise the record is replaced |
| MedicalHistoryService.MedicalHistoryService.DeleteMedicalHistory | MedicalSystem.Core/Services/IMedicalHistoryService.cs:87-94 | NotFound for an unknown id; otherwise exactly that history is removed |
| PrescriptionService.ValidatePrescription | MedicalSystem.Core/Services/IPrescriptionService.cs:107-146 | A prescription passes exactly when medication, dosage and instructions are present, its patient, doctor and examination are stored, it is dated no later than now, and the examination was made on the same patient by the same doctor |
| PrescriptionService.AllPrescriptionRulesHold | MedicalSystem.Core/Services/IPrescriptionService.cs:107-146 | All nine rules hold exactly when the prescription meets the nine conditions together |
| PrescriptionService.PrescriptionRulesGiveConditions | MedicalSystem.Core/Services/IPrescriptionService.cs:107-146 | When every rule holds, the prescription meets all nine conditions |
| PrescriptionService.ConditionsGivePrescriptionRules | MedicalSystem.Core/Services/IPrescriptionService.cs:107-146 | A prescription meeting all nine conditions breaks none of the rules |
| PrescriptionService.ExaminationMatchImpliesReferences | MedicalSystem.Core/Services/IPrescriptionService.cs:121-146 | In a consistent store the separate patient and doctor existence checks add nothing to the examination match |
| PrescriptionService.BlankInstructionsReported | MedicalSystem.Core/Services/IPrescriptionService.cs:118-119 | Blank instructions are refused once medication and dosage are present |
| PrescriptionService.PrescribedNowAccepted | MedicalSystem.Core/Services/IPrescriptionService.cs:137-138 | A prescription dated exactly now is accepted |
| PrescriptionService.PatientMismatchReported | MedicalSystem.Core/Services/IPrescriptionService.cs:141-142 | A prescription for another patient than the examination's is refused, even though both patients exist, ahead of a doctor mismatch |
| PrescriptionService.PrescriptionService.GetAllPrescriptions | MedicalSystem.Core/Services/IPrescriptionService.cs:37-40 | Every prescription once, latest first |
| PrescriptionService.PrescriptionService.GetPrescriptionById | MedicalSystem.Core/Services/IPrescriptionService.cs:42-48 | The stored prescription, or NotFound exactly when the id is absent |
| PrescriptionService.PrescriptionService.GetPrescriptionsByPatient | MedicalSystem.Core/Services/IPrescriptionService.cs:50-57 | NotFound for an unknown patient; otherwise exactly their prescriptions, each once, latest first |
| PrescriptionService.PrescriptionService.GetPrescriptionsByDoctor | MedicalSystem.Core/Services/IPrescriptionService.cs:59-66 | NotFound for an unknown doctor; otherwise exactly their prescriptions, each once, latest first |
| PrescriptionService.PrescriptionService.CreatePrescription | MedicalSystem.Core/Services/IPrescriptionService.cs:68-74 | Invalid with the store unchanged; a medication or dosage longer than its column is a store failure that stores no row but uses up one prescription identity; otherwise exactly one prescription is added under the next identity value, and the prescription sequence moves on by one |
| PrescriptionService.PrescriptionService.UpdatePrescription | MedicalSystem.Core/Services/IPrescriptionService.cs:76-86 | An unknown id is NotFound before validation; then Invalid, then Conflict for a lost race or a value longer than its column; otherwise the record is replaced |
| PrescriptionService.PrescriptionService.DeletePrescription | MedicalSystem.Core/Services/IPrescriptionService.cs:88-95 | NotFound for an unknown id; otherwise exactly that prescription is removed |
| PrescriptionService.PrescriptionService.ExportPrescriptionToPdf | MedicalSystem.Core/Services/IPrescriptionService.cs:97-105 | NotFound for an unknown id and Unimplemented for every stored one; never a document |
| MedicalImageService.Extension | MedicalSystem.Core/Services/IMedicalImageService.cs:95 | The extension is the name's tail from its last '.' after the last separator, and empty exactly when there is no such '.' before the final character |
| MedicalImageService.ExtensionShape | MedicalSystem.Core/Services/IMedicalImageService.cs:95 | A non-empty extension is a '.' and at least one more character, none a '.' or a separator, ending the name |
| MedicalImageService.ExtensionExamples | MedicalSystem.Core/Services/IMedicalImageService.cs:95 | "scan.PNG" gives ".PNG", "scan." and "a.b/scan" give "", "scan.tar.gz" gives ".gz" |
| MedicalImageService.ExtensionBefore | MedicalSystem.Core/Services/IMedicalImageService.cs:95 | The right-to-left scan of `Path.GetExtension` gives a non-empty result exactly when the name has an extension, and then that extension |
| MedicalImageService.ContentTypeCheckIgnoresCase | MedicalSystem.Core/Services/IMedicalImageService.cs:90-92 | Two content types equal up to case are both accepted or both refused |
| MedicalImageService.ContentTypeExamples | MedicalSystem.Core/Services/IMedicalImageService.cs:90-92 | "IMAGE/PNG" is accepted; "image/gif" and "image/jpg" are not |
| MedicalImageService.ContentTypeAllowed | MedicalSystem.Core/Services/IMedicalImageService.cs:90-92 | Only image types pass: an accepted content type, lower-cased, starts with "image/" |
| MedicalImageService.AllowedContentTypeFits | MedicalSystem.Core/Models/MedicalImage.cs:24-27 | Every content type the upload accepts fits the 50-character file-type column, so the type alone never makes the insert fail |
| MedicalImageService.StoredFileName | MedicalSystem.Core/Services/IMedicalImageService.cs:95-96 | The stored name starts with the fresh token and ends with the extension of the uploaded name |
| MedicalImageService.MedicalImageService.constructor | MedicalSystem.Core/Services/IMedicalImageService.cs:33-55 | The service owns the given store and the given set of files |
| MedicalImageService.MedicalImageService.GetAllMedicalImages | MedicalSystem.Core/Services/IMedicalImageService.cs:58-61 | Every image once, latest upload first |
| MedicalImageService.MedicalImageService.GetMedicalImageById | MedicalSystem.Core/Services/IMedicalImageService.cs:63-69 | The stored image, or NotFound exactly when the id is absent |
| MedicalImageService.MedicalImageService.GetImagesByExamination | MedicalSystem.Core/Services/IMedicalImageService.cs:71-78 | NotFound for an unknown examination; otherwise exactly its images, each once, latest upload first |
| MedicalImageService.MedicalImageService.UploadMedicalImage | MedicalSystem.Core/Services/IMedicalImageService.cs:80-115 | A missing or empty file is Invalid before the examination lookup; an unknown examination is NotFound; a type outside JPEG, PNG and DICOM is Invalid; otherwise exactly one file is written, and one record is added under the next identity value, moving the image sequence on by one and keeping the content type as sent, unless the stored file name is longer than its column, in which case the insert is a store failure that uses up one image identity and the file stays behind |
| MedicalImageService.MedicalImageService.DeleteMedicalImage | MedicalSystem.Core/Services/IMedicalImageService.cs:117-132 | NotFound for an unknown id; otherwise the file is gone if it was there, and the record is removed either way |
| MedicalImageService.MedicalImageService.GetMedicalImageFile | MedicalSystem.Core/Services/IMedicalImageService.cs:134-146 | NotFound for an unknown record, FileMissing when its file is gone, otherwise the stored type and name |

## Left out

- Null records, null strings and `ArgumentNullException`: records are
  values and strings are never null.
- `char.IsDigit` and `ToLower`: the model handles ASCII only. .NET also
  accepts other Unicode decimal digits and lower-cases non-ASCII letters.
- Clocks: `DateTime.Now`, `DateTime.UtcNow` and `DateTime.Today` are
  parameters. The model does not distinguish local time from UTC, and
  treats `DateTime.SpecifyKind` as the identity on the stored value. The
  `DateTime` range limits (years 1 to 9999) are not modelled.
- Navigation loading: `Include`/`ThenInclude` appear only as the details
  records computed from foreign keys. The doctor or patient objects hung
  on each loaded row are not modelled.
- The file system under image upload: the bytes, `FileStream`, the upload
  directory and the environment-variable set-up in the constructor. The
  files are a set of names.
- MedicalImageService.Extension: only '/' is a directory separator. The
  Windows separators '\\' and ':' are not modelled.
- Identity on create: callers are taken to leave the id at 0, and the
  store assigns the next one. An explicit id, which the database would
  take as given (and refuse when taken, with a duplicate-key failure), is
  not modelled; neither is the tracking state of the entity. The store
  draws the identity before the row is checked, as a PostgreSQL identity
  column does with `nextval`, so an insert the database refuses (a held
  national id, a dangling key, an over-wide value) uses up one value of
  that table's sequence, which is never given back.
- Concurrency: concurrent requests are not modelled. A lost write race in
  Update is the `raced` parameter.
- Images orphaned on disk when a cascade removes their records: the
  cascades act on the tables only.
- The HTTP controllers, the start-up wiring, the interfaces and
  `ExaminationCreateDto` are not part of this model.
- Row order among equal keys and the store's unordered `GetAll`: the model
  uses ascending id as store order, and a stable sort keeps that order
  among rows with the same date.
- MedicalHistoryRepository.ActiveIsOpenHistory: states that the active
  conditions are the open entries of the history. It does not state that
  they keep the history's relative order.
- Column widths: a value longer than its `character varying(n)` column is
  refused. PostgreSQL instead truncates an over-long value whose excess
  characters are all spaces; that case is not modelled. The
  `MinimumLength` and `RegularExpression` annotations are not database
  constraints: only the model validation of the HTTP layer applies them,
  and that layer is not part of this model.
- Store.MedicalStore.UpdateExamination: a dangling foreign key on an update
  is reported as Conflict, the way the repository translates every
  `DbUpdateException`. No particular database error text is modelled.

=== FILE: dates.dfy ===
/** Calendar values standing for System.DateTime: a Gregorian date plus the
    time of day in 100-nanosecond ticks. Comparison goes through Ordinal,
    which orders instants exactly as the calendar does. */
module Dates {

  const TicksPerDay: int := 864_000_000_000

  datatype Date = Date(year: int, month: int, day: int)

  predicate IsLeapYear(y: int)
  {
    y % 4 == 0 && (y % 100 != 0 || y % 400 == 0)
  }

  function DaysInMonth(y: int, m: int): (n: int)
    requires 1 <= m <= 12
    ensures 28 <= n <= 31
  {
    if m == 2 then (if IsLeapYear(y) then 29 else 28)
    else if m == 4 || m == 6 || m == 9 || m == 11 then 30
    else 31
  }

  predicate IsValidDate(d: Date)
  {
    1 <= d.month <= 12 && 1 <= d.day <= DaysInMonth(d.year, d.month)
  }

  type CalendarDate = d: Date | IsValidDate(d) witness Date(1, 1, 1)

  datatype Timestamp = Timestamp(date: CalendarDate, timeOfDay: int)

  /** A DateTime: a valid date and a time of day below one day. */
  type DateTime = t: Timestamp | 0 <= t.timeOfDay < TicksPerDay
    witness Timestamp(Date(1, 1, 1), 0)

  /** Midnight of the given date (DateTime.Date, DateTime.Today). */
  function StartOfDay(d: CalendarDate): DateTime
  {
    Timestamp(d, 0)
  }

  /** Calendar order on dates: by year, then month, then day. */
  predicate DateBefore(a: Date, b: Date)
  {
    || a.year < b.year
    || (a.year == b.year && a.month < b.month)
    || (a.year == b.year && a.month == b.month && a.day < b.day)
  }

  /** Calendar order on instants: by date, then time of day. */
  predicate Earlier(a: Timestamp, b: Timestamp)
  {
    DateBefore(a.date, b.date) || (a.date == b.date && a.timeOfDay < b.timeOfDay)
  }

  function DayOrdinal(d: Date): int
  {
    (d.year * 12 + (d.month - 1)) * 31 + (d.day - 1)
  }

  /** An integer that increases with time; every comparison of DateTime values
      in the model is a comparison of their ordinals. */
  function Ordinal(t: Timestamp): int
  {
    DayOrdinal(t.date) * TicksPerDay + t.timeOfDay
  }

  lemma {:induction false} MulAtLeast(k: int, b: int)
    requires k >= 1 && b > 0
    ensures k * b >= b
    decreases k
  {
    if k > 1 {
      MulAtLeast(k - 1, b);
      assert k * b == (k - 1) * b + b;
    }
  }

  lemma MixedRadix(q1: int, r1: int, q2: int, r2: int, b: int)
    requires b > 0 && 0 <= r1 < b && 0 <= r2 < b
    ensures q1 * b + r1 < q2 * b + r2 <==> q1 < q2 || (q1 == q2 && r1 < r2)
    ensures q1 * b + r1 == q2 * b + r2 <==> q1 == q2 && r1 == r2
  {
    if q1 < q2 {
      var k := q2 - q1;
      MulAtLeast(k, b);
      assert q2 * b == q1 * b + k * b;
    } else if q2 < q1 {
      var k := q1 - q2;
      MulAtLeast(k, b);
      assert q1 * b == q2 * b + k * b;
    }
  }

  /** Day ordinals order valid dates as the calendar does, and tell them apart. */
  lemma DayOrdinalIsChronological(a: CalendarDate, b: CalendarDate)
    ensures DayOrdinal(a) < DayOrdinal(b) <==> DateBefore(a, b)
    ensures DayOrdinal(a) == DayOrdinal(b) <==> a == b
  {
    MixedRadix(a.year, a.month - 1, b.year, b.month - 1, 12);
    MixedRadix(a.year * 12 + (a.month - 1), a.day - 1, b.year * 12 + (b.month - 1), b.day - 1, 31);
  }

  /** Ordinals order instants as the calendar does, and tell them apart, so
      comparing ordinals is comparing DateTime values. */
  lemma OrdinalIsChronological(a: DateTime, b: DateTime)
    ensures Ordinal(a) < Ordinal(b) <==> Earlier(a, b)
    ensures Ordinal(a) == Ordinal(b) <==> a == b
  {
    DayOrdinalIsChronological(a.date, b.date);
    MixedRadix(DayOrdinal(a.date), a.timeOfDay, DayOrdinal(b.date), b.timeOfDay, TicksPerDay);
  }

  /** DateTime.AddYears on a date: same month and day n years on, except that
      29 February becomes 28 February in a common year. */
  function AddYearsToDate(d: CalendarDate, n: int): (r: CalendarDate)
    ensures r.year == d.year + n && r.month == d.month
    ensures r.day == d.day || (d.month == 2 && d.day == 29 && r.day == 28 && !IsLeapYear(r.year))
  {
    if d.month == 2 && d.day == 29 && !IsLeapYear(d.year + n) then Date(d.year + n, 2, 28)
    else Date(d.year + n, d.month, d.day)
  }

  /** DateTime.AddYears: n years on, the month and the time of day kept, the
      day kept unless 29 February has to become 28 February. */
  function AddYears(t: DateTime, n: int): (r: DateTime)
    ensures r.date.year == t.date.year + n && r.date.month == t.date.month
    ensures r.timeOfDay == t.timeOfDay
    ensures r.date.day == t.date.day || (t.date.month == 2 && t.date.day == 29 && r.date.day == 28)
  {
    Timestamp(AddYearsToDate(t.date, n), t.timeOfDay)
  }

  /** Adding a positive number of years moves strictly later. */
  lemma AddYearsIsLater(t: DateTime, n: int)
    requires n >= 1
    ensures Ordinal(t) < Ordinal(AddYears(t, n))
  {
    OrdinalIsChronological(t, AddYears(t, n));
  }
}

=== FILE: doctor_repository.dfy ===
/** DoctorRepository: a doctor together with the examinations and
    prescriptions that name them. */
module DoctorRepository {
  import opened Outcomes
  import opened Records
  import opened Tabular
  import opened Store
  import Repository

  datatype DoctorDetails = DoctorDetails(
    doctor: Doctor,
    examinations: seq<Examination>,
    prescriptions: seq<Prescription>)

  /** The examinations and prescriptions recorded under the doctor's id. */
  function DetailsOf(t: Tables, d: Doctor): (r: DoctorDetails)
    ensures r.doctor == d
    ensures forall e :: e in r.examinations <==> IsRowOf(t.examinations, e) && e.doctorId == d.id
    ensures |r.examinations| == |ExaminationIdsByDoctor(t, d.id)|
    ensures forall p :: p in r.prescriptions <==> IsRowOf(t.prescriptions, p) && p.doctorId == d.id
    ensures |r.prescriptions| == |PrescriptionIdsByDoctor(t, d.id)|
  {
    var ofExamination := (e: Examination) => e.doctorId == d.id;
    var ofPrescription := (p: Prescription) => p.doctorId == d.id;
    assert KeysWhere(t.examinations, ofExamination) == ExaminationIdsByDoctor(t, d.id);
    assert KeysWhere(t.prescriptions, ofPrescription) == PrescriptionIdsByDoctor(t, d.id);
    DoctorDetails(d, Repository.Find(t.examinations, ofExamination), Repository.Find(t.prescriptions, ofPrescription))
  }

  /** GetDoctorWithDetailsAsync: the stored doctor with their examinations and
      prescriptions, or nothing when the id is not stored. */
  function WithDetails(t: Tables, id: int): (r: Option<DoctorDetails>)
    ensures r.Some? <==> id in t.doctors
    ensures r.Some? ==> r.value == DetailsOf(t, t.doctors[id])
  {
    if id in t.doctors then Some(DetailsOf(t, t.doctors[id])) else None
  }

  /** GetDoctorsWithExaminationsAsync: every stored doctor, once each, with
      their examinations and prescriptions. */
  function WithExaminations(t: Tables): (r: seq<DoctorDetails>)
    ensures |r| == |t.doctors|
    ensures forall i :: 0 <= i < |r| ==> IsRowOf(t.doctors, r[i].doctor) && r[i] == DetailsOf(t, r[i].doctor)
  {
    var ks := SortedKeys(t.doctors.Keys);
    assert forall i :: 0 <= i < |ks| ==> ks[i] in t.doctors;
    seq(|ks|, i requires 0 <= i < |ks| => DetailsOf(t, t.doctors[ks[i]]))
  }

  /** No stored doctor is missing from the list. */
  lemma EveryDoctorListed(t: Tables, k: int)
    requires k in t.doctors
    ensures exists i :: 0 <= i < |WithExaminations(t)| && WithExaminations(t)[i].doctor == t.doctors[k]
  {
    var ks := SortedKeys(t.doctors.Keys);
    var i :| 0 <= i < |ks| && ks[i] == k;
    assert WithExaminations(t)[i].doctor == t.doctors[k];
  }

  /** The doctor's examinations in the details are non-empty exactly when a
      stored examination names the doctor. */
  lemma ExaminationsShowReference(t: Tables, id: int)
    requires KeyedById(t)
    requires id in t.doctors
    ensures |WithDetails(t, id).value.examinations| > 0 <==>
      exists k :: k in t.examinations && t.examinations[k].doctorId == id
  {
    var es := WithDetails(t, id).value.examinations;
    if |es| > 0 {
      assert es[0] in es;
      var k :| k in t.examinations && t.examinations[k] == es[0];
    }
    if exists k :: k in t.examinations && t.examinations[k].doctorId == id {
      var k :| k in t.examinations && t.examinations[k].doctorId == id;
      assert IsRowOf(t.examinations, t.examinations[k]);
      assert t.examinations[k] in es;
    }
  }

  /** The same for the doctor's prescriptions. */
  lemma PrescriptionsShowReference(t: Tables, id: int)
    requires KeyedById(t)
    requires id in t.doctors
    ensures |WithDetails(t, id).value.prescriptions| > 0 <==>
      exists k :: k in t.prescriptions && t.prescriptions[k].doctorId == id
  {
    var ps := WithDetails(t, id).value.prescriptions;
    if |ps| > 0 {
      assert ps[0] in ps;
      var k :| k in t.prescriptions && t.prescriptions[k] == ps[0];
    }
    if exists k :: k in t.prescriptions && t.prescriptions[k].doctorId == id {
      var k :| k in t.prescriptions && t.prescriptions[k].doctorId == id;
      assert IsRowOf(t.prescriptions, t.prescriptions[k]);
      assert t.prescriptions[k] in ps;
    }
  }

  /** The service's check on the details (any examination or prescription)
      is exactly the database's restrict rule on deleting a doctor. */
  lemma DetailsShowRestriction(t: Tables, id: int)
    requires KeyedById(t)
    requires id in t.doctors
    ensures var d := WithDetails(t, id).value;
      |d.examinations| > 0 || |d.prescriptions| > 0 <==> DoctorReferenced(t, id)
  {
    ExaminationsShowReference(t, id);
    PrescriptionsShowReference(t, id);
  }
}

=== FILE: doctor_service.dfy ===
/** DoctorService: the doctor validator and the service operations over the
    store. */
module DoctorService {
  import opened Outcomes
  import opened Text
  import opened Records
  import opened Tabular
  import opened Store
  import DoctorRepository

  /** The rules of ValidateDoctor, in the order they are checked. */
  const DoctorRules: seq<Violation> := [FirstNameRequired, LastNameRequired, SpecializationRequired]

  predicate DoctorRuleHolds(d: Doctor, rule: Violation)
  {
    match rule
    case FirstNameRequired => !IsBlank(d.firstName)
    case LastNameRequired => !IsBlank(d.lastName)
    case SpecializationRequired => !IsBlank(d.specialization)
    case _ => true
  }

  /** ValidateDoctor: a doctor passes when first name, last name and
      specialization are all present; otherwise a broken rule is reported. */
  function ValidateDoctor(d: Doctor): (c: Check)
    ensures c == Pass <==> !IsBlank(d.firstName) && !IsBlank(d.lastName) && !IsBlank(d.specialization)
    ensures c.Fail? ==> c.rule in DoctorRules && !DoctorRuleHolds(d, c.rule)
  {
    FirstFailure(DoctorRules, rule => DoctorRuleHolds(d, rule))
  }

  /** The rules are checked in order: the first blank field, reading first
      name, last name, specialization, is the one reported. */
  lemma DoctorRulesReportedInOrder(d: Doctor)
    ensures IsBlank(d.firstName) ==> ValidateDoctor(d) == Fail(FirstNameRequired)
    ensures !IsBlank(d.firstName) && IsBlank(d.lastName) ==> ValidateDoctor(d) == Fail(LastNameRequired)
    ensures !IsBlank(d.firstName) && !IsBlank(d.lastName) && IsBlank(d.specialization) ==>
      ValidateDoctor(d) == Fail(SpecializationRequired)
  {
    var holds := rule => DoctorRuleHolds(d, rule);
    if IsBlank(d.firstName) {
      FirstFailureIsFirst(DoctorRules, holds, 0);
    } else if IsBlank(d.lastName) {
      FirstFailureIsFirst(DoctorRules, holds, 1);
    } else if IsBlank(d.specialization) {
      FirstFailureIsFirst(DoctorRules, holds, 2);
    }
  }

  class DoctorService {
    const store: MedicalStore

    constructor (store: MedicalStore)
      ensures this.store == store
    {
      this.store := store;
    }

    /** GetAllDoctorsAsync. */
    method GetAllDoctors() returns (r: seq<Doctor>)
      ensures forall d :: d in r <==> IsRowOf(store.doctors, d)
      ensures |r| == |store.doctors|
    {
      r := Rows(store.doctors);
      forall d ensures d in r <==> IsRowOf(store.doctors, d) {
        InRowsIffRowOf(store.doctors, d);
      }
    }

    /** GetDoctorByIdAsync: the stored doctor, or NotFound. */
    method GetDoctorById(id: int) returns (r: Outcome<Doctor>)
      ensures id in store.doctors ==> r == Ok(store.doctors[id])
      ensures id !in store.doctors ==> r == NotFound
    {
      if id !in store.doctors {
        return NotFound;
      }
      r := Ok(store.doctors[id]);
    }

    /** GetDoctorWithDetailsAsync: the doctor with their examinations and
        prescriptions, or NotFound. */
    method GetDoctorWithDetails(id: int) returns (r: Outcome<DoctorRepository.DoctorDetails>)
      ensures id !in store.doctors ==> r == NotFound
      ensures id in store.doctors ==> r == Ok(DoctorRepository.DetailsOf(store.Snapshot(), store.doctors[id]))
    {
      var d := DoctorRepository.WithDetails(store.Snapshot(), id);
      if d.None? {
        return NotFound;
      }
      r := Ok(d.value);
    }

    /** GetDoctorsWithExaminationsAsync: every doctor, each with their
        examinations and prescriptions. */
    method GetDoctorsWithExaminations() returns (r: seq<DoctorRepository.DoctorDetails>)
      ensures |r| == |store.doctors|
      ensures forall i :: 0 <= i < |r| ==>
        IsRowOf(store.doctors, r[i].doctor) && r[i] == DoctorRepository.DetailsOf(store.Snapshot(), r[i].doctor)
      ensures forall k :: k in store.doctors ==> exists i :: 0 <= i < |r| && r[i].doctor == store.doctors[k]
    {
      r := DoctorRepository.WithExaminations(store.Snapshot());
      forall k | k in store.doctors ensures exists i :: 0 <= i < |r| && r[i].doctor == store.doctors[k] {
        DoctorRepository.EveryDoctorListed(store.Snapshot(), k);
      }
    }

    /** CreateDoctorAsync: validate, then add with the next id; a value wider
        than its column makes the insert fail. */
    method CreateDoctor(d: Doctor) returns (r: Outcome<Doctor>)
      requires store.Valid()
      modifies store
      ensures store.Valid()
      ensures ValidateDoctor(d).Fail? ==> r == Invalid(ValidateDoctor(d).rule) && unchanged(store)
      ensures ValidateDoctor(d).Pass? && !DoctorFits(d) ==>
        && r == StoreFailure
        && store.Snapshot() == old(store.Snapshot())
        && store.NextIds() == old(store.NextIds()).(doctor := old(store.nextDoctorId) + 1)
      ensures ValidateDoctor(d).Pass? && DoctorFits(d) ==>
        && r == Ok(d.(id := old(store.nextDoctorId)))
        && store.Snapshot() == old(store.Snapshot()).(doctors := old(store.doctors)[old(store.nextDoctorId) := r.value])
        && store.NextIds() == old(store.NextIds()).(doctor := old(store.nextDoctorId) + 1)
    {
      var c := ValidateDoctor(d);
      if c.Fail? {
        return Invalid(c.rule);
      }
      r := store.AddDoctor(d);
    }

    /** UpdateDoctorAsync: validate first, then NotFound, then write the
        whole record; a lost race or a value wider than its column is
        Conflict. */
    method UpdateDoctor(d: Doctor, raced: bool) returns (r: Outcome<()>)
      requires store.Valid()
      modifies store
      ensures store.Valid() && store.NextIds() == old(store.NextIds())
      ensures ValidateDoctor(d).Fail? ==> r == Invalid(ValidateDoctor(d).rule) && unchanged(store)
      ensures ValidateDoctor(d).Pass? && d.id !in old(store.doctors) ==> r == NotFound && unchanged(store)
      ensures (ValidateDoctor(d).Pass? && d.id in old(store.doctors) && (raced || !DoctorFits(d))) ==>
        r == Conflict && unchanged(store)
      ensures (ValidateDoctor(d).Pass? && d.id in old(store.doctors) && !raced && DoctorFits(d)) ==>
        r == Ok(()) && store.Snapshot() == old(store.Snapshot()).(doctors := old(store.doctors)[d.id := d])
    {
      var c := ValidateDoctor(d);
      if c.Fail? {
        return Invalid(c.rule);
      }
      if d.id !in store.doctors {
        return NotFound;
      }
      r := store.UpdateDoctor(d, raced);
    }

    /** DeleteDoctorAsync: NotFound; Conflict while any examination or
        prescription names the doctor; otherwise the doctor is removed. */
    method DeleteDoctor(id: int) returns (r: Outcome<()>)
      requires store.Valid()
      modifies store
      ensures store.Valid() && store.NextIds() == old(store.NextIds())
      ensures id !in old(store.doctors) ==> r == NotFound && unchanged(store)
      ensures id in old(store.doctors) && DoctorReferenced(old(store.Snapshot()), id) ==>
        r == Conflict && unchanged(store)
      ensures id in old(store.doctors) && !DoctorReferenced(old(store.Snapshot()), id) ==>
        r == Ok(()) && store.Snapshot() == old(store.Snapshot()).(doctors := old(store.doctors) - {id})
    {
      if id !in store.doctors {
        return NotFound;
      }
      var details := DoctorRepository.WithDetails(store.Snapshot(), id);
      DoctorRepository.DetailsShowRestriction(store.Snapshot(), id);
      if |details.value.examinations| > 0 || |details.value.prescriptions| > 0 {
        return Conflict;
      }
      r := store.DeleteDoctor(id);
    }
  }
}

=== FILE: examination_repository.dfy ===
/** ExaminationRepository: examinations by patient, by doctor and in all,
    newest first, and one examination with its images and prescriptions. */
module ExaminationRepository {
  import opened Outcomes
  import opened Dates
  import opened Records
  import opened Tabular
  import opened Store
  import Repository

  function ExaminedAt(e: Examination): DateTime
  {
    e.examinationDateTime
  }

  /** GetExaminationsByPatientAsync: the patient's examinations, once each,
      latest first. */
  function ByPatient(t: Tables, patientId: int): (r: seq<Examination>)
    ensures forall e :: e in r <==> IsRowOf(t.examinations, e) && e.patientId == patientId
    ensures |r| == |ExaminationIdsOf(t, patientId)|
    ensures forall i, j :: 0 <= i < j < |r| ==> !Earlier(r[i].examinationDateTime, r[j].examinationDateTime)
  {
    var p := (e: Examination) => e.patientId == patientId;
    var r := OrderedByDate(t.examinations, p, ExaminedAt);
    assert KeysWhere(t.examinations, p) == ExaminationIdsOf(t, patientId);
    r
  }

  /** GetExaminationsByDoctorAsync: the doctor's examinations, once each,
      latest first. */
  function ByDoctor(t: Tables, doctorId: int): (r: seq<Examination>)
    ensures forall e :: e in r <==> IsRowOf(t.examinations, e) && e.doctorId == doctorId
    ensures |r| == |ExaminationIdsByDoctor(t, doctorId)|
    ensures forall i, j :: 0 <= i < j < |r| ==> !Earlier(r[i].examinationDateTime, r[j].examinationDateTime)
  {
    var p := (e: Examination) => e.doctorId == doctorId;
    var r := OrderedByDate(t.examinations, p, ExaminedAt);
    assert KeysWhere(t.examinations, p) == ExaminationIdsByDoctor(t, doctorId);
    r
  }

  /** GetAllAsync: every stored examination, once each, latest first. */
  function All(t: Tables): (r: seq<Examination>)
    ensures forall e :: e in r <==> IsRowOf(t.examinations, e)
    ensures |r| == |t.examinations|
    ensures forall i, j :: 0 <= i < j < |r| ==> !Earlier(r[i].examinationDateTime, r[j].examinationDateTime)
  {
    AllByDate(t.examinations, ExaminedAt)
  }

  datatype ExaminationDetails = ExaminationDetails(
    examination: Examination,
    images: seq<MedicalImage>,
    prescriptions: seq<Prescription>)

  /** GetExaminationWithDetailsAsync: the stored examination with its images
      and prescriptions, once each, or nothing when the id is not stored. */
  function WithDetails(t: Tables, id: int): (r: Option<ExaminationDetails>)
    ensures r.Some? <==> id in t.examinations
    ensures r.Some? ==>
      && r.value.examination == t.examinations[id]
      && (forall i :: i in r.value.images <==> IsRowOf(t.images, i) && i.examinationId == id)
      && |r.value.images| == |ImageIdsOfExamination(t, id)|
      && (forall p :: p in r.value.prescriptions <==> IsRowOf(t.prescriptions, p) && p.examinationId == id)
      && |r.value.prescriptions| == |PrescriptionIdsOfExamination(t, id)|
  {
    if id !in t.examinations then None
    else
      var ofImage := (i: MedicalImage) => i.examinationId == id;
      var ofPrescription := (p: Prescription) => p.examinationId == id;
      assert KeysWhere(t.images, ofImage) == ImageIdsOfExamination(t, id);
      assert KeysWhere(t.prescriptions, ofPrescription) == PrescriptionIdsOfExamination(t, id);
      Some(ExaminationDetails(
        t.examinations[id],
        Repository.Find(t.images, ofImage),
        Repository.Find(t.prescriptions, ofPrescription)))
  }

  /** Deleting the examination removes every row its details show, and
      nothing else. */
  lemma DetailsAreCascaded(t: Tables, id: int)
    requires Consistent(t)
    requires id in t.examinations
    ensures var d := WithDetails(t, id).value;
      var c := ExaminationCascade(t, id);
      && (forall i :: i in d.images ==> i.id !in c.images)
      && (forall p :: p in d.prescriptions ==> p.id !in c.prescriptions)
      && (forall k :: k in t.images && k !in c.images ==> t.images[k] in d.images)
      && (forall k :: k in t.prescriptions && k !in c.prescriptions ==> t.prescriptions[k] in d.prescriptions)
  {
    var d := WithDetails(t, id).value;
    var c := ExaminationCascade(t, id);
    forall i | i in d.images ensures i.id !in c.images {
      var k :| k in t.images && t.images[k] == i;
    }
    forall p | p in d.prescriptions ensures p.id !in c.prescriptions {
      var k :| k in t.prescriptions && t.prescriptions[k] == p;
    }
    forall k | k in t.images && k !in c.images ensures t.images[k] in d.images {
      assert IsRowOf(t.images, t.images[k]);
    }
    forall k | k in t.prescriptions && k !in c.prescriptions ensures t.prescriptions[k] in d.prescriptions {
      assert IsRowOf(t.prescriptions, t.prescriptions[k]);
    }
  }
}

=== FILE: examination_service.dfy ===
/** ExaminationService: the examination validator and the service operations
    over the store. */
module ExaminationService {
  import opened Outcomes
  import opened Dates
  import opened Text
  import opened Records
  import opened Tabular
  import opened Store
  import ExaminationRepository

  /** The rules of ValidateExaminationAsync, in the order they are checked. */
  const ExaminationRules: seq<Violation> := [ExaminationTooFarAhead, NotesRequired, PatientUnknown, DoctorUnknown]

  /** The condition behind each rule; `now` is DateTime.UtcNow. */
  predicate ExaminationRuleHolds(e: Examination, t: Tables, now: DateTime, rule: Violation)
  {
    match rule
    case ExaminationTooFarAhead => !Earlier(AddYears(now, 1), e.examinationDateTime)
    case NotesRequired => !IsBlank(e.notes)
    case PatientUnknown => e.patientId in t.patients
    case DoctorUnknown => e.doctorId in t.doctors
    case _ => true
  }

  /** ValidateExaminationAsync: an examination passes when it is at most one
      year after now, has notes, and names a stored patient and a stored
      doctor; otherwise a broken rule is reported. */
  function ValidateExamination(e: Examination, t: Tables, now: DateTime): (c: Check)
    ensures c == Pass <==>
      && !Earlier(AddYears(now, 1), e.examinationDateTime)
      && !IsBlank(e.notes)
      && ExaminationRefsResolve(t, e)
    ensures c.Fail? ==> c.rule in ExaminationRules && !ExaminationRuleHolds(e, t, now, c.rule)
  {
    FirstFailure(ExaminationRules, rule => ExaminationRuleHolds(e, t, now, rule))
  }

  /** "More than one year ahead" is strict: an examination exactly one year
      after now is accepted. */
  lemma ExactlyOneYearAheadAccepted(e: Examination, t: Tables, now: DateTime)
    requires e.examinationDateTime == AddYears(now, 1)
    requires !IsBlank(e.notes) && ExaminationRefsResolve(t, e)
    ensures ValidateExamination(e, t, now) == Pass
  {
    OrdinalIsChronological(AddYears(now, 1), e.examinationDateTime);
  }

  /** A date beyond one year ahead is reported first, whatever else is wrong
      with the examination. */
  lemma TooFarAheadReportedFirst(e: Examination, t: Tables, now: DateTime)
    requires Earlier(AddYears(now, 1), e.examinationDateTime)
    ensures ValidateExamination(e, t, now) == Fail(ExaminationTooFarAhead)
  {
    FirstFailureIsFirst(ExaminationRules, rule => ExaminationRuleHolds(e, t, now, rule), 0);
  }

  /** An unknown patient is reported before an unknown doctor. */
  lemma UnknownPatientReportedBeforeDoctor(e: Examination, t: Tables, now: DateTime)
    requires !Earlier(AddYears(now, 1), e.examinationDateTime) && !IsBlank(e.notes)
    requires e.patientId !in t.patients
    ensures ValidateExamination(e, t, now) == Fail(PatientUnknown)
  {
    FirstFailureIsFirst(ExaminationRules, rule => ExaminationRuleHolds(e, t, now, rule), 2);
  }

  class ExaminationService {
    const store: MedicalStore

    constructor (store: MedicalStore)
      ensures this.store == store
    {
      this.store := store;
    }

    /** GetAllExaminationsAsync: every examination once, latest first. */
    method GetAllExaminations() returns (r: seq<Examination>)
      ensures forall e :: e in r <==> IsRowOf(store.examinations, e)
      ensures |r| == |store.examinations|
      ensures forall i, j :: 0 <= i < j < |r| ==> !Earlier(r[i].examinationDateTime, r[j].examinationDateTime)
    {
      r := ExaminationRepository.All(store.Snapshot());
    }

    /** GetExaminationByIdAsync: the stored examination, or NotFound. */
    method GetExaminationById(id: int) returns (r: Outcome<Examination>)
      ensures id in store.examinations ==> r == Ok(store.examinations[id])
      ensures id !in store.examinations ==> r == NotFound
    {
      if id !in store.examinations {
        return NotFound;
      }
      r := Ok(store.examinations[id]);
    }

    /** GetExaminationWithDetailsAsync: the examination with its images and
        prescriptions, or NotFound. */
    method GetExaminationWithDetails(id: int) returns (r: Outcome<ExaminationRepository.ExaminationDetails>)
      ensures id !in store.examinations ==> r == NotFound
      ensures id in store.examinations ==> r.Ok? && ExaminationRepository.WithDetails(store.Snapshot(), id) == Some(r.value)
    {
      var d := ExaminationRepository.WithDetails(store.Snapshot(), id);
      if d.None? {
        return NotFound;
      }
      r := Ok(d.value);
    }

    /** GetExaminationsByPatientAsync: NotFound for an unknown patient,
        otherwise the patient's examinations, once each, latest first. */
    method GetExaminationsByPatient(patientId: int) returns (r: Outcome<seq<Examination>>)
      ensures patientId !in store.patients ==> r == NotFound
      ensures patientId in store.patients ==>
        && r.Ok?
        && (forall e :: e in r.value <==> IsRowOf(store.examinations, e) && e.patientId == patientId)
        && |r.value| == |ExaminationIdsOf(store.Snapshot(), patientId)|
        && (forall i, j :: 0 <= i < j < |r.value| ==> !Earlier(r.value[i].examinationDateTime, r.value[j].examinationDateTime))
    {
      if patientId !in store.patients {
        return NotFound;
      }
      r := Ok(ExaminationRepository.ByPatient(store.Snapshot(), patientId));
    }

    /** GetExaminationsByDoctorAsync: NotFound for an unknown doctor,
        otherwise the doctor's examinations, once each, latest first. */
    method GetExaminationsByDoctor(doctorId: int) returns (r: Outcome<seq<Examination>>)
      ensures doctorId !in store.doctors ==> r == NotFound
      ensures doctorId in store.doctors ==>
        && r.Ok?
        && (forall e :: e in r.value <==> IsRowOf(store.examinations, e) && e.doctorId == doctorId)
        && |r.value| == |ExaminationIdsByDoctor(store.Snapshot(), doctorId)|
        && (forall i, j :: 0 <= i < j < |r.value| ==> !Earlier(r.value[i].examinationDateTime, r.value[j].examinationDateTime))
    {
      if doctorId !in store.doctors {
        return NotFound;
      }
      r := Ok(ExaminationRepository.ByDoctor(store.Snapshot(), doctorId));
    }

    /** CreateExaminationAsync: validate, then add with the next id. An
        examination that passes validation is never refused by the store. */
    method CreateExamination(e: Examination, now: DateTime) returns (r: Outcome<Examination>)
      requires store.Valid()
      modifies store
      ensures store.Valid()
      ensures ValidateExamination(e, old(store.Snapshot()), now).Fail? ==>
        r == Invalid(ValidateExamination(e, old(store.Snapshot()), now).rule) && unchanged(store)
      ensures ValidateExamination(e, old(store.Snapshot()), now).Pass? ==>
        && r == Ok(e.(id := old(store.nextExaminationId)))
        && store.Snapshot() == old(store.Snapshot()).(examinations := old(store.examinations)[old(store.nextExaminationId) := r.value])
        && store.NextIds() == old(store.NextIds()).(examination := old(store.nextExaminationId) + 1)
    {
      var c := ValidateExamination(e, store.Snapshot(), now);
      if c.Fail? {
        return Invalid(c.rule);
      }
      r := store.AddExamination(e);
    }

    /** UpdateExaminationAsync: NotFound first, then validate, then write the
        whole record. */
    method UpdateExamination(e: Examination, now: DateTime, raced: bool) returns (r: Outcome<()>)
      requires store.Valid()
      modifies store
      ensures store.Valid() && store.NextIds() == old(store.NextIds())
      ensures e.id !in old(store.examinations) ==> r == NotFound && unchanged(store)
      ensures (e.id in old(store.examinations) && ValidateExamination(e, old(store.Snapshot()), now).Fail?) ==>
        r == Invalid(ValidateExamination(e, old(store.Snapshot()), now).rule) && unchanged(store)
      ensures (e.id in old(store.examinations) && ValidateExamination(e, old(store.Snapshot()), now).Pass? && raced) ==>
        r == Conflict && unchanged(store)
      ensures (e.id in old(store.examinations) && ValidateExamination(e, old(store.Snapshot()), now).Pass? && !raced) ==>
        r == Ok(()) && store.Snapshot() == old(store.Snapshot()).(examinations := old(store.examinations)[e.id := e])
    {
      if e.id !in store.examinations {
        return NotFound;
      }
      var c := ValidateExamination(e, store.Snapshot(), now);
      if c.Fail? {
        return Invalid(c.rule);
      }
      r := store.UpdateExamination(e, raced);
    }

    /** DeleteExaminationAsync: NotFound, or the examination is removed with
        its images and prescriptions. */
    method DeleteExamination(id: int) returns (r: Outcome<()>)
      requires store.Valid()
      modifies store
      ensures store.Valid() && store.NextIds() == old(store.NextIds())
      ensures id !in old(store.examinations) ==> r == NotFound && unchanged(store)
      ensures id in old(store.examinations) ==>
        r == Ok(()) && store.Snapshot() == ExaminationCascade(old(store.Snapshot()), id)
    {
      if id !in store.examinations {
        return NotFound;
      }
      r := store.DeleteExamination(id);
    }
  }
}

=== FILE: history_repository.dfy ===
/** MedicalHistoryRepository: a patient's conditions and the ones still
    active, newest start first. */
module MedicalHistoryRepository {
  import opened Dates
  import opened Records
  import opened Tabular
  import opened Store

  function StartedAt(h: MedicalHistory): DateTime
  {
    h.startDate
  }

  /** GetPatientHistoryAsync: every condition recorded for the patient, once
      each, the most recently started first. */
  function PatientHistory(t: Tables, patientId: int): (r: seq<MedicalHistory>)
    ensures forall h :: h in r <==> IsRowOf(t.histories, h) && h.patientId == patientId
    ensures |r| == |HistoryIdsOf(t, patientId)|
    ensures forall i, j :: 0 <= i < j < |r| ==> !Earlier(r[i].startDate, r[j].startDate)
  {
    var p := (h: MedicalHistory) => h.patientId == patientId;
    var r := OrderedByDate(t.histories, p, StartedAt);
    assert KeysWhere(t.histories, p) == HistoryIdsOf(t, patientId);
    r
  }

  /** GetActiveConditionsAsync: the patient's conditions without an end date,
      once each, the most recently started first. */
  function ActiveConditions(t: Tables, patientId: int): (r: seq<MedicalHistory>)
    ensures forall h :: h in r <==> IsRowOf(t.histories, h) && h.patientId == patientId && h.endDate.None?
    ensures |r| == |ActiveHistoryIdsOf(t, patientId)|
    ensures forall i, j :: 0 <= i < j < |r| ==> !Earlier(r[i].startDate, r[j].startDate)
  {
    var p := (h: MedicalHistory) => h.patientId == patientId && h.endDate.None?;
    var r := OrderedByDate(t.histories, p, StartedAt);
    assert KeysWhere(t.histories, p) == ActiveHistoryIdsOf(t, patientId);
    r
  }

  /** GetAllAsync: every stored condition, once each, the most recently started
      first. */
  function All(t: Tables): (r: seq<MedicalHistory>)
    ensures forall h :: h in r <==> IsRowOf(t.histories, h)
    ensures |r| == |t.histories|
    ensures forall i, j :: 0 <= i < j < |r| ==> !Earlier(r[i].startDate, r[j].startDate)
  {
    AllByDate(t.histories, StartedAt)
  }

  /** The active conditions are the open entries of the patient's history. */
  lemma ActiveIsOpenHistory(t: Tables, patientId: int, h: MedicalHistory)
    ensures h in ActiveConditions(t, patientId) <==> h in PatientHistory(t, patientId) && h.endDate.None?
  {
  }
}

=== FILE: history_service.dfy ===
/** MedicalHistoryService: the history validator and the service operations
    over the store. */
module MedicalHistoryService {
  import opened Outcomes
  import opened Dates
  import opened Text
  import opened Records
  import opened Tabular
  import opened Store
  import MedicalHistoryRepository

  /** The rules of ValidateMedicalHistoryAsync, in the order they are checked. */
  const HistoryRules: seq<Violation> :=
    [DiseaseNameRequired, PatientUnknown, StartDateInFuture, EndDateInFuture, EndDateBeforeStartDate]

  /** The condition behind each rule; `now` is DateTime.UtcNow. The two rules
      on the end date hold trivially while the condition is open. */
  predicate HistoryRuleHolds(h: MedicalHistory, t: Tables, now: DateTime, rule: Violation)
  {
    match rule
    case DiseaseNameRequired => !IsBlank(h.diseaseName)
    case PatientUnknown => h.patientId in t.patients
    case StartDateInFuture => !Earlier(now, h.startDate)
    case EndDateInFuture => h.endDate.None? || !Earlier(now, h.endDate.value)
    case EndDateBeforeStartDate => h.endDate.None? || !Earlier(h.endDate.value, h.startDate)
    case _ => true
  }

  /** ValidateMedicalHistoryAsync: a history passes when it names a disease
      and a stored patient, starts no later than now, and, when it has ended,
      ended no later than now and no earlier than it started. */
  function ValidateHistory(h: MedicalHistory, t: Tables, now: DateTime): (c: Check)
    ensures c == Pass <==>
      && !IsBlank(h.diseaseName)
      && HistoryRefsResolve(t, h)
      && !Earlier(now, h.startDate)
      && (h.endDate.Some? ==> !Earlier(now, h.endDate.value) && !Earlier(h.endDate.value, h.startDate))
    ensures c.Fail? ==> c.rule in HistoryRules && !HistoryRuleHolds(h, t, now, c.rule)
  {
    AllHistoryRulesHold(h, t, now);
    FirstFailure(HistoryRules, rule => HistoryRuleHolds(h, t, now, rule))
  }

  /** Every rule holds exactly when the history meets all five conditions
      together. */
  lemma AllHistoryRulesHold(h: MedicalHistory, t: Tables, now: DateTime)
    ensures (forall i :: 0 <= i < |HistoryRules| ==> HistoryRuleHolds(h, t, now, HistoryRules[i])) <==>
      && !IsBlank(h.diseaseName)
      && HistoryRefsResolve(t, h)
      && !Earlier(now, h.startDate)
      && (h.endDate.Some? ==> !Earlier(now, h.endDate.value) && !Earlier(h.endDate.value, h.startDate))
  {
    var rules := HistoryRules;
    assert rules[0] == DiseaseNameRequired && rules[1] == PatientUnknown && rules[2] == StartDateInFuture;
    assert rules[3] == EndDateInFuture && rules[4] == EndDateBeforeStartDate;
  }

  /** An accepted history lies in the past and in order: start, then end,
      then now. */
  lemma AcceptedPeriodIsOrdered(h: MedicalHistory, t: Tables, now: DateTime)
    requires ValidateHistory(h, t, now) == Pass
    ensures Ordinal(h.startDate) <= Ordinal(now)
    ensures h.endDate.Some? ==> Ordinal(h.startDate) <= Ordinal(h.endDate.value) <= Ordinal(now)
  {
    OrdinalIsChronological(now, h.startDate);
    if h.endDate.Some? {
      OrdinalIsChronological(now, h.endDate.value);
      OrdinalIsChronological(h.endDate.value, h.startDate);
    }
  }

  /** A condition that ended the day (the instant) it started is accepted. */
  lemma EndOnStartAccepted(h: MedicalHistory, t: Tables, now: DateTime)
    requires !IsBlank(h.diseaseName) && HistoryRefsResolve(t, h)
    requires !Earlier(now, h.startDate)
    requires h.endDate == Some(h.startDate)
    ensures ValidateHistory(h, t, now) == Pass
  {
    OrdinalIsChronological(h.startDate, h.startDate);
  }

  /** An end before the start, with the start not in the future, is reported
      as such: the end is then not in the future either. */
  lemma ReversedPeriodReported(h: MedicalHistory, t: Tables, now: DateTime)
    requires !IsBlank(h.diseaseName) && HistoryRefsResolve(t, h)
    requires !Earlier(now, h.startDate)
    requires h.endDate.Some? && Earlier(h.endDate.value, h.startDate)
    ensures ValidateHistory(h, t, now) == Fail(EndDateBeforeStartDate)
  {
    OrdinalIsChronological(now, h.startDate);
    OrdinalIsChronological(now, h.endDate.value);
    OrdinalIsChronological(h.endDate.value, h.startDate);
    FirstFailureIsFirst(HistoryRules, rule => HistoryRuleHolds(h, t, now, rule), 4);
  }

  class MedicalHistoryService {
    const store: MedicalStore

    constructor (store: MedicalStore)
      ensures this.store == store
    {
      this.store := store;
    }

    /** GetAllMedicalHistoriesAsync: every history once, latest start first. */
    method GetAllMedicalHistories() returns (r: seq<MedicalHistory>)
      ensures forall h :: h in r <==> IsRowOf(store.histories, h)
      ensures |r| == |store.histories|
      ensures forall i, j :: 0 <= i < j < |r| ==> !Earlier(r[i].startDate, r[j].startDate)
    {
      r := MedicalHistoryRepository.All(store.Snapshot());
    }

    /** GetMedicalHistoryByIdAsync: the stored history, or NotFound. */
    method GetMedicalHistoryById(id: int) returns (r: Outcome<MedicalHistory>)
      ensures id in store.histories ==> r == Ok(store.histories[id])
      ensures id !in store.histories ==> r == NotFound
    {
      if id !in store.histories {
        return NotFound;
      }
      r := Ok(store.histories[id]);
    }

    /** GetPatientHistoryAsync: NotFound for an unknown patient, otherwise
        the patient's histories, once each, latest start first. */
    method GetPatientHistory(patientId: int) returns (r: Outcome<seq<MedicalHistory>>)
      ensures patientId !in store.patients ==> r == NotFound
      ensures patientId in store.patients ==>
        && r.Ok?
        && (forall h :: h in r.value <==> IsRowOf(store.histories, h) && h.patientId == patientId)
        && |r.value| == |HistoryIdsOf(store.Snapshot(), patientId)|
        && (forall i, j :: 0 <= i < j < |r.value| ==> !Earlier(r.value[i].startDate, r.value[j].startDate))
    {
      if patientId !in store.patients {
        return NotFound;
      }
      r := Ok(MedicalHistoryRepository.PatientHistory(store.Snapshot(), patientId));
    }

    /** GetActiveConditionsAsync: NotFound for an unknown patient, otherwise
        the patient's histories without an end date, once each, latest start
        first. */
    method GetActiveConditions(patientId: int) returns (r: Outcome<seq<MedicalHistory>>)
      ensures patientId !in store.patients ==> r == NotFound
      ensures patientId in store.patients ==>
        && r.Ok?
        && (forall h :: h in r.value <==> IsRowOf(store.histories, h) && h.patientId == patientId && h.endDate.None?)
        && |r.value| == |ActiveHistoryIdsOf(store.Snapshot(), patientId)|
        && (forall i, j :: 0 <= i < j < |r.value| ==> !Earlier(r.value[i].startDate, r.value[j].startDate))
    {
      if patientId !in store.patients {
        return NotFound;
      }
      r := Ok(MedicalHistoryRepository.ActiveConditions(store.Snapshot(), patientId));
    }

    /** CreateMedicalHistoryAsync: validate, then add with the next id. A
        history that passes validation names a stored patient, so only a
        disease name wider than its column makes the insert fail. */
    method CreateMedicalHistory(h: MedicalHistory, now: DateTime) returns (r: Outcome<MedicalHistory>)
      requires store.Valid()
      modifies store
      ensures store.Valid()
      ensures ValidateHistory(h, old(store.Snapshot()), now).Fail? ==>
        r == Invalid(ValidateHistory(h, old(store.Snapshot()), now).rule) && unchanged(store)
      ensures ValidateHistory(h, old(store.Snapshot()), now).Pass? && !HistoryFits(h) ==>
        && r == StoreFailure
        && store.Snapshot() == old(store.Snapshot())
        && store.NextIds() == old(store.NextIds()).(history := old(store.nextHistoryId) + 1)
      ensures ValidateHistory(h, old(store.Snapshot()), now).Pass? && HistoryFits(h) ==>
        && r == Ok(h.(id := old(store.nextHistoryId)))
        && store.Snapshot() == old(store.Snapshot()).(histories := old(store.histories)[old(store.nextHistoryId) := r.value])
        && store.NextIds() == old(store.NextIds()).(history := old(store.nextHistoryId) + 1)
    {
      var c := ValidateHistory(h, store.Snapshot(), now);
      if c.Fail? {
        return Invalid(c.rule);
      }
      r := store.AddHistory(h);
    }

    /** UpdateMedicalHistoryAsync: NotFound first, then validate, then write
        the whole record; a lost race or a disease name wider than its column
        is Conflict. */
    method UpdateMedicalHistory(h: MedicalHistory, now: DateTime, raced: bool) returns (r: Outcome<()>)
      requires store.Valid()
      modifies store
      ensures store.Valid() && store.NextIds() == old(store.NextIds())
      ensures h.id !in old(store.histories) ==> r == NotFound && unchanged(store)
      ensures (h.id in old(store.histories) && ValidateHistory(h, old(store.Snapshot()), now).Fail?) ==>
        r == Invalid(ValidateHistory(h, old(store.Snapshot()), now).rule) && unchanged(store)
      ensures (h.id in old(store.histories) && ValidateHistory(h, old(store.Snapshot()), now).Pass? &&
               (raced || !HistoryFits(h))) ==>
        r == Conflict && unchanged(store)
      ensures (h.id in old(store.histories) && ValidateHistory(h, old(store.Snapshot()), now).Pass? &&
               !raced && HistoryFits(h)) ==>
        r == Ok(()) && store.Snapshot() == old(store.Snapshot()).(histories := old(store.histories)[h.id := h])
    {
      if h.id !in store.histories {
        return NotFound;
      }
      var c := ValidateHistory(h, store.Snapshot(), now);
      if c.Fail? {
        return Invalid(c.rule);
      }
      r := store.UpdateHistory(h, raced);
    }

    /** DeleteMedicalHistoryAsync: NotFound, or that one history is removed. */
    method DeleteMedicalHistory(id: int) returns (r: Outcome<()>)
      requires store.Valid()
      modifies store
      ensures store.Valid() && store.NextIds() == old(store.NextIds())
      ensures id !in old(store.histories) ==> r == NotFound && unchanged(store)
      ensures id in old(store.histories) ==>
        r == Ok(()) && store.Snapshot() == old(store.Snapshot()).(histories := old(store.histories) - {id})
    {
      if id !in store.histories {
        return NotFound;
      }
      r := store.DeleteHistory(id);
    }
  }
}

=== FILE: image_repository.dfy ===
/** MedicalImageRepository: the images of an examination and all images,
    latest upload first. */
module MedicalImageRepository {
  import opened Dates
  import opened Records
  import opened Tabular
  import opened Store

  function UploadedAt(i: MedicalImage): DateTime
  {
    i.uploadDateTime
  }

  /** GetImagesByExaminationAsync: the examination's images, once each,
      latest upload first. */
  function ByExamination(t: Tables, examinationId: int): (r: seq<MedicalImage>)
    ensures forall i :: i in r <==> IsRowOf(t.images, i) && i.examinationId == examinationId
    ensures |r| == |ImageIdsOfExamination(t, examinationId)|
    ensures forall a, b :: 0 <= a < b < |r| ==> !Earlier(r[a].uploadDateTime, r[b].uploadDateTime)
  {
    var p := (i: MedicalImage) => i.examinationId == examinationId;
    var r := OrderedByDate(t.images, p, UploadedAt);
    assert KeysWhere(t.images, p) == ImageIdsOfExamination(t, examinationId);
    r
  }

  /** GetAllAsync: every stored image, once each, latest upload first. */
  function All(t: Tables): (r: seq<MedicalImage>)
    ensures forall i :: i in r <==> IsRowOf(t.images, i)
    ensures |r| == |t.images|
    ensures forall a, b :: 0 <= a < b < |r| ==> !Earlier(r[a].uploadDateTime, r[b].uploadDateTime)
  {
    AllByDate(t.images, UploadedAt)
  }
}

=== FILE: image_service.dfy ===
/** MedicalImageService: image upload with its checks, the stored file name,
    and the image files kept beside the image records. */
module MedicalImageService {
  import opened Outcomes
  import opened Dates
  import opened Text
  import opened Records
  import opened Tabular
  import opened Store
  import MedicalImageRepository

  /** An uploaded form file: its client-side name, its declared content type
      and its length in bytes (the bytes themselves are not modelled). */
  datatype UploadedFile = UploadedFile(fileName: string, contentType: string, length: nat)

  /** The extension of `path` starts at index i: a '.' that is not the last
      character, with no '.' and no directory separator after it. */
  ghost predicate ExtensionStartsAt(path: string, i: int)
  {
    && 0 <= i < |path| - 1
    && path[i] == '.'
    && forall j :: i < j < |path| ==> path[j] != '.' && path[j] != '/'
  }

  /** The scan of Path.GetExtension over path[..k], from the right, knowing
      that path[k..] holds neither a '.' nor a separator. */
  function ExtensionBefore(path: string, k: nat): (r: string)
    requires k <= |path|
    requires forall j :: k <= j < |path| ==> path[j] != '.' && path[j] != '/'
    ensures r != [] <==> exists i :: ExtensionStartsAt(path, i)
    ensures forall i :: ExtensionStartsAt(path, i) ==> r == path[i..]
    decreases k
  {
    if k == 0 then
      assert forall i :: !ExtensionStartsAt(path, i) by {
        forall i | 0 <= i < |path| ensures path[i] != '.' { }
      }
      ""
    else if path[k - 1] == '.' then
      if k == |path| then
        assert forall i :: !ExtensionStartsAt(path, i) by {
          forall i | 0 <= i < |path| - 1 && path[i] == '.'
            ensures exists j :: i < j < |path| && path[j] == '.'
          {
            assert path[|path| - 1] == '.';
          }
        }
        ""
      else
        assert ExtensionStartsAt(path, k - 1);
        assert forall i :: ExtensionStartsAt(path, i) ==> i == k - 1;
        path[k - 1..]
    else if path[k - 1] == '/' then
      assert forall i :: !ExtensionStartsAt(path, i);
      ""
    else
      ExtensionBefore(path, k - 1)
  }

  /** Path.GetExtension with '/' as the only directory separator: from the
      last '.' to the end, or empty when there is no '.' after the last
      separator or the name ends in '.'. */
  function Extension(path: string): (r: string)
    ensures r != [] <==> exists i :: ExtensionStartsAt(path, i)
    ensures forall i :: ExtensionStartsAt(path, i) ==> r == path[i..]
  {
    ExtensionBefore(path, |path|)
  }

  /** An extension, when there is one, is a '.' followed by at least one
      character, none of them a '.' or a separator, and ends the name. */
  lemma ExtensionShape(path: string)
    ensures var r := Extension(path);
      r != [] ==>
        && |r| >= 2 && r[0] == '.'
        && (forall j :: 1 <= j < |r| ==> r[j] != '.' && r[j] != '/')
        && r == path[|path| - |r|..]
  {
    var r := Extension(path);
    if r != [] {
      var i :| ExtensionStartsAt(path, i);
      assert r == path[i..];
      forall j | 1 <= j < |r| ensures r[j] != '.' && r[j] != '/' {
        assert r[j] == path[i + j];
      }
    }
  }

  /** Examples: an ordinary name, a name ending in '.', a dot only in a
      directory name, and a double extension. */
  lemma ExtensionExamples()
    ensures Extension("scan.PNG") == ".PNG"
    ensures Extension("scan.") == ""
    ensures Extension("a.b/scan") == ""
    ensures Extension("scan.tar.gz") == ".gz"
  {
    assert ExtensionStartsAt("scan.PNG", 4);
    assert ExtensionStartsAt("scan.tar.gz", 8);
    var p := "a.b/scan";
    assert p[3] == '/';
    var q := "scan.";
    assert q[4] == '.';
  }

  /** The content types the upload accepts, compared in lower case. */
  const AllowedContentTypes: seq<string> := ["image/jpeg", "image/png", "image/dicom"]

  /** Only image types pass: the accepted value, lower-cased, starts with "image/". */
  predicate ContentTypeAllowed(contentType: string)
    ensures ContentTypeAllowed(contentType) ==> |contentType| >= 6 && ToLower(contentType)[..6] == "image/"
  {
    ToLower(contentType) in AllowedContentTypes
  }

  /** The check ignores the case of the declared type. */
  lemma ContentTypeCheckIgnoresCase(a: string, b: string)
    requires ToLower(a) == ToLower(b)
    ensures ContentTypeAllowed(a) <==> ContentTypeAllowed(b)
  {
  }

  /** "IMAGE/PNG" is accepted; "image/gif" and "image/jpg" are not. */
  lemma ContentTypeExamples()
    ensures ContentTypeAllowed("IMAGE/PNG")
    ensures !ContentTypeAllowed("image/gif") && !ContentTypeAllowed("image/jpg")
  {
    assert ToLower("IMAGE/PNG") == "image/png";
    var g := ToLower("image/gif");
    assert g == "image/gif";
    assert g != AllowedContentTypes[0] && g != AllowedContentTypes[1] && g != AllowedContentTypes[2] by {
      assert g[6] == 'g';
    }
    var j := ToLower("image/jpg");
    assert j == "image/jpg";
    assert |j| == 9;
  }

  /** Every accepted content type fits the FileType column, so only the
      stored file name can be too wide for the image row. */
  lemma AllowedContentTypeFits(contentType: string)
    requires ContentTypeAllowed(contentType)
    ensures |contentType| <= FileTypeWidth
  {
    var lower := ToLower(contentType);
    assert lower == AllowedContentTypes[0] || lower == AllowedContentTypes[1] || lower == AllowedContentTypes[2];
  }

  /** The name an upload is stored under: a fresh token (Guid.NewGuid) followed
      by the extension of the uploaded name. */
  function StoredFileName(token: string, file: UploadedFile): (name: string)
    ensures |token| <= |name| && name[..|token|] == token
    ensures name[|token|..] == Extension(file.fileName)
  {
    token + Extension(file.fileName)
  }

  class MedicalImageService {
    const store: MedicalStore
    /** The names of the files present in the upload directory. */
    var files: set<string>

    constructor (store: MedicalStore, files: set<string>)
      ensures this.store == store && this.files == files
    {
      this.store := store;
      this.files := files;
    }

    /** GetAllMedicalImagesAsync: every image once, latest upload first. */
    method GetAllMedicalImages() returns (r: seq<MedicalImage>)
      ensures forall i :: i in r <==> IsRowOf(store.images, i)
      ensures |r| == |store.images|
      ensures forall a, b :: 0 <= a < b < |r| ==> !Earlier(r[a].uploadDateTime, r[b].uploadDateTime)
    {
      r := MedicalImageRepository.All(store.Snapshot());
    }

    /** GetMedicalImageByIdAsync: the stored image record, or NotFound. */
    method GetMedicalImageById(id: int) returns (r: Outcome<MedicalImage>)
      ensures id in store.images ==> r == Ok(store.images[id])
      ensures id !in store.images ==> r == NotFound
    {
      if id !in store.images {
        return NotFound;
      }
      r := Ok(store.images[id]);
    }

    /** GetImagesByExaminationAsync: NotFound for an unknown examination,
        otherwise its images, once each, latest upload first. */
    method GetImagesByExamination(examinationId: int) returns (r: Outcome<seq<MedicalImage>>)
      ensures examinationId !in store.examinations ==> r == NotFound
      ensures examinationId in store.examinations ==>
        && r.Ok?
        && (forall i :: i in r.value <==> IsRowOf(store.images, i) && i.examinationId == examinationId)
        && |r.value| == |ImageIdsOfExamination(store.Snapshot(), examinationId)|
        && (forall a, b :: 0 <= a < b < |r.value| ==> !Earlier(r.value[a].uploadDateTime, r.value[b].uploadDateTime))
    {
      if examinationId !in store.examinations {
        return NotFound;
      }
      r := Ok(MedicalImageRepository.ByExamination(store.Snapshot(), examinationId));
    }

    /** UploadMedicalImageAsync: a missing or empty file is refused, then an
        unknown examination, then a content type outside JPEG, PNG and DICOM;
        otherwise the file is written under a fresh name and the record is
        added with the declared content type as sent and `now`
        (DateTime.UtcNow) as upload time. A stored name wider than its column
        makes the insert fail after the file has been written. */
    method UploadMedicalImage(examinationId: int, file: Option<UploadedFile>, token: string, now: DateTime)
      returns (r: Outcome<MedicalImage>)
      requires store.Valid()
      modifies this, store
      ensures store.Valid()
      ensures (file.None? || file.value.length == 0) ==>
        r == Invalid(NoFileUploaded) && unchanged(this) && unchanged(store)
      ensures (file.Some? && file.value.length > 0 && examinationId !in old(store.examinations)) ==>
        r == NotFound && unchanged(this) && unchanged(store)
      ensures (file.Some? && file.value.length > 0 && examinationId in old(store.examinations)
               && !ContentTypeAllowed(file.value.contentType)) ==>
        r == Invalid(FileTypeNotAllowed) && unchanged(this) && unchanged(store)
      ensures (file.Some? && file.value.length > 0 && examinationId in old(store.examinations)
               && ContentTypeAllowed(file.value.contentType)) ==>
        && files == old(files) + {StoredFileName(token, file.value)}
        && (|StoredFileName(token, file.value)| > FileNameWidth ==>
              && r == StoreFailure
              && store.Snapshot() == old(store.Snapshot())
              && store.NextIds() == old(store.NextIds()).(image := old(store.nextImageId) + 1))
        && (|StoredFileName(token, file.value)| <= FileNameWidth ==>
              && r == Ok(MedicalImage(old(store.nextImageId), examinationId, StoredFileName(token, file.value),
                                      file.value.contentType, now))
              && store.Snapshot() == old(store.Snapshot()).(images := old(store.images)[old(store.nextImageId) := r.value])
              && store.NextIds() == old(store.NextIds()).(image := old(store.nextImageId) + 1))
    {
      if file.None? || file.value.length == 0 {
        return Invalid(NoFileUploaded);
      }
      if examinationId !in store.examinations {
        return NotFound;
      }
      if !ContentTypeAllowed(file.value.contentType) {
        return Invalid(FileTypeNotAllowed);
      }
      var name := StoredFileName(token, file.value);
      files := files + {name};
      AllowedContentTypeFits(file.value.contentType);
      r := store.AddImage(MedicalImage(0, examinationId, name, file.value.contentType, now));
    }

    /** DeleteMedicalImageAsync: NotFound; otherwise the file is removed when
        present and then the record. */
    method DeleteMedicalImage(id: int) returns (r: Outcome<()>)
      requires store.Valid()
      modifies this, store
      ensures store.Valid() && store.NextIds() == old(store.NextIds())
      ensures id !in old(store.images) ==> r == NotFound && unchanged(this) && unchanged(store)
      ensures id in old(store.images) ==>
        && r == Ok(())
        && files == old(files) - {old(store.images)[id].fileName}
        && store.Snapshot() == old(store.Snapshot()).(images := old(store.images) - {id})
    {
      if id !in store.images {
        return NotFound;
      }
      var image := store.images[id];
      if image.fileName in files {
        files := files - {image.fileName};
      }
      r := store.DeleteImage(id);
    }

    /** GetMedicalImageFileAsync: NotFound for an unknown image, FileMissing
        when its file is gone, otherwise the content type and file name of
        the record (the file's bytes are not modelled). */
    method GetMedicalImageFile(id: int) returns (r: Outcome<(string, string)>)
      ensures id !in store.images ==> r == NotFound
      ensures id in store.images && store.images[id].fileName !in files ==> r == FileMissing
      ensures id in store.images && store.images[id].fileName in files ==>
        r == Ok((store.images[id].fileType, store.images[id].fileName))
    {
      if id !in store.images {
        return NotFound;
      }
      var image := store.images[id];
      if image.fileName !in files {
        return FileMissing;
      }
      r := Ok((image.fileType, image.fileName));
    }
  }
}

=== FILE: outcomes.dfy ===
/** Result kinds shared by the store and the domain services, and the
    ordered rule chain that every validator follows. */
module Outcomes {

  datatype Option<+T> = None | Some(value: T)

  /** Every rule a validator (or an argument check) can report. Rules that
      read alike in several services share a constructor. */
  datatype Violation =
    | FirstNameRequired
    | LastNameRequired
    | PersonalIdRequired
    | PersonalIdNotElevenDigits
    | BirthDateNotInPast
    | GenderNotMOrF
    | SpecializationRequired
    | ExaminationTooFarAhead
    | NotesRequired
    | PatientUnknown
    | DoctorUnknown
    | ExaminationUnknown
    | DiseaseNameRequired
    | StartDateInFuture
    | EndDateInFuture
    | EndDateBeforeStartDate
    | MedicationRequired
    | DosageRequired
    | InstructionsRequired
    | PrescriptionDateInFuture
    | PrescriptionPatientMismatch
    | PrescriptionDoctorMismatch
    | NoFileUploaded
    | FileTypeNotAllowed
    | LastNameQueryBlank

  /** What a caller sees. The exception each kind stands for:
      NotFound = KeyNotFoundException, Invalid = ArgumentException (also
      ArgumentNullException), Conflict = InvalidOperationException,
      Unimplemented = NotImplementedException, FileMissing =
      FileNotFoundException, StoreFailure = a DbUpdateException that the
      repository does not translate. */
  datatype Outcome<+T> =
    | Ok(value: T)
    | NotFound
    | Invalid(rule: Violation)
    | Conflict
    | Unimplemented
    | FileMissing
    | StoreFailure

  /** The verdict of a validator: no rule broken, or the first one broken. */
  datatype Check = Pass | Fail(rule: Violation)

  /** Walks the rules in order and reports the first one that does not hold. */
  function FirstFailure(rules: seq<Violation>, holds: Violation -> bool): (c: Check)
    ensures c.Pass? <==> forall i :: 0 <= i < |rules| ==> holds(rules[i])
    ensures c.Fail? ==>
      exists i :: 0 <= i < |rules| && rules[i] == c.rule && !holds(rules[i]) &&
        forall j :: 0 <= j < i ==> holds(rules[j])
  {
    if rules == [] then Pass
    else if !holds(rules[0]) then Fail(rules[0])
    else
      var rest := FirstFailure(rules[1..], holds);
      if rest.Fail? then
        ghost var i :| 0 <= i < |rules| - 1 && rules[1..][i] == rest.rule && !holds(rules[1..][i]) &&
          forall j :: 0 <= j < i ==> holds(rules[1..][j]);
        assert rules[i + 1] == rest.rule && forall j :: 0 <= j < i + 1 ==> holds(rules[j]) by {
          forall j | 0 <= j < i + 1 ensures holds(rules[j]) {
            if j > 0 { assert rules[j] == rules[1..][j - 1]; }
          }
        }
        rest
      else
        assert forall i :: 0 <= i < |rules| ==> holds(rules[i]) by {
          forall i | 0 <= i < |rules| ensures holds(rules[i]) {
            if i > 0 { assert rules[i] == rules[1..][i - 1]; }
          }
        }
        rest
  }

  /** The chain reports exactly the earliest broken rule: if rule k is broken
      and every rule before it holds, the verdict is Fail(rules[k]). */
  lemma {:induction false} FirstFailureIsFirst(rules: seq<Violation>, holds: Violation -> bool, k: nat)
    requires k < |rules|
    requires !holds(rules[k]) && forall j :: 0 <= j < k ==> holds(rules[j])
    ensures FirstFailure(rules, holds) == Fail(rules[k])
  {
    var c := FirstFailure(rules, holds);
    assert c.Fail?;
    var i :| 0 <= i < |rules| && rules[i] == c.rule && !holds(rules[i]) &&
      forall j :: 0 <= j < i ==> holds(rules[j]);
  }
}

=== FILE: patient_model.dfy ===
/** What the Patient record declares about itself: the computed Age and the
    data annotations on its columns, compared with the checks the patient
    service makes. */
module PatientModel {
  import opened Dates
  import opened Text
  import opened Records

  /** Patient.Age on the day `today` (DateTime.Today): the difference of the
      years, one less when dob.Date > today.AddYears(-age). */
  function Age(dob: DateTime, today: CalendarDate): (r: int)
    ensures r == today.year - dob.date.year || r == today.year - dob.date.year - 1
  {
    var age := today.year - dob.date.year;
    if Earlier(AddYears(StartOfDay(today), -age), StartOfDay(dob.date)) then age - 1 else age
  }

  /** The birthday (month and day) falls on or before the given day of the year. */
  predicate BirthdayReached(dob: Date, today: Date)
  {
    dob.month < today.month || (dob.month == today.month && dob.day <= today.day)
  }

  /** Age is the number of birthdays completed: the year difference, less one
      before this year's birthday. The clamp of 29 February inside AddYears
      never changes the answer. */
  lemma AgeIsCompletedYears(dob: DateTime, today: CalendarDate)
    ensures Age(dob, today) == today.year - dob.date.year - (if BirthdayReached(dob.date, today) then 0 else 1)
  {
    var age := today.year - dob.date.year;
    var shifted := AddYearsToDate(today, -age);
    assert shifted.year == dob.date.year && shifted.month == today.month;
    if shifted.day != today.day {
      // today is 29 February and dob.date.year is a common year, so dob is not 29 February
      assert dob.date.month != 2 || dob.date.day <= 28;
    }
  }

  /** A negative age means exactly that the birth date lies after today. */
  lemma NegativeAgeIffBornLater(dob: DateTime, today: CalendarDate)
    ensures Age(dob, today) < 0 <==> DateBefore(today, dob.date)
  {
    AgeIsCompletedYears(dob, today);
  }

  /** Someone born on 29 February 2000 is still 0 on 28 February 2001 and
      turns 1 on 1 March 2001. */
  lemma LeapDayBirthday()
    ensures Age(StartOfDay(Date(2000, 2, 29)), Date(2001, 2, 28)) == 0
    ensures Age(StartOfDay(Date(2000, 2, 29)), Date(2001, 3, 1)) == 1
    ensures Age(StartOfDay(Date(2000, 2, 29)), Date(2004, 2, 29)) == 4
  {
    AgeIsCompletedYears(StartOfDay(Date(2000, 2, 29)), Date(2001, 2, 28));
    AgeIsCompletedYears(StartOfDay(Date(2000, 2, 29)), Date(2001, 3, 1));
    AgeIsCompletedYears(StartOfDay(Date(2000, 2, 29)), Date(2004, 2, 29));
  }

  // ---- The data annotations declared on the columns.

  /** [Required][StringLength(100)] on FirstName and LastName. */
  predicate DeclaredNameValid(s: string)
  {
    !IsBlank(s) && |s| <= 100
  }

  /** [Required][StringLength(11, MinimumLength = 11)][RegularExpression("^[0-9]*$")]. */
  predicate DeclaredNationalIdValid(s: string)
  {
    |s| == 11 && AllDigits(s)
  }

  /** [Required][StringLength(1)][RegularExpression("^[MFmf]$")]. */
  predicate DeclaredGenderValid(g: string)
  {
    |g| == 1 && g[0] in "MFmf"
  }

  /** The service's national-id checks (not blank, then eleven digits) accept
      exactly the ids the column declares. */
  lemma NationalIdChecksMatchDeclaration(s: string)
    ensures (!IsBlank(s) && |s| == 11 && AllDigits(s)) <==> DeclaredNationalIdValid(s)
  {
    if |s| == 11 && AllDigits(s) {
      assert IsDigit(s[0]) && !IsWhiteSpace(s[0]);
    }
  }

  /** The service's gender check, "MFmf".Contains(gender): what it lets
      through is at most four characters, each one of M, F, m and f. */
  predicate ServiceGenderAccepts(g: string)
    ensures ServiceGenderAccepts(g) ==> |g| <= 4 && forall i :: 0 <= i < |g| ==> g[i] in "MFmf"
  {
    ContainsIffOccursAt("MFmf", g);
    Contains("MFmf", g)
  }

  /** The strings the service's gender check lets through: every substring of
      "MFmf", the empty string included. */
  const GenderSubstrings: set<string> := {"", "M", "F", "m", "f", "MF", "Fm", "mf", "MFm", "Fmf", "MFmf"}

  lemma ServiceGenderAcceptsSubstrings(g: string)
    ensures ServiceGenderAccepts(g) <==> g in GenderSubstrings
  {
    var h := "MFmf";
    ContainsIffOccursAt(h, g);
    if ServiceGenderAccepts(g) {
      var i :| OccursAt(h, g, i);
      assert g == h[i..i + |g|];
      assert h[0..0] == "" && h[0..1] == "M" && h[1..2] == "F" && h[2..3] == "m" && h[3..4] == "f";
      assert h[0..2] == "MF" && h[1..3] == "Fm" && h[2..4] == "mf";
      assert h[0..3] == "MFm" && h[1..4] == "Fmf" && h[0..4] == "MFmf";
      if i == 0 { assert g == h[0..0] || g == h[0..1] || g == h[0..2] || g == h[0..3] || g == h[0..4]; }
      else if i == 1 { assert g == h[0..0] || g == h[1..2] || g == h[1..3] || g == h[1..4]; }
      else if i == 2 { assert g == h[0..0] || g == h[2..3] || g == h[2..4]; }
      else if i == 3 { assert g == h[0..0] || g == h[3..4]; }
      else { assert g == h[0..0]; }
    }
    if g in GenderSubstrings {
      if g == "" { assert OccursAt(h, g, 0); }
      else if g == "M" { assert OccursAt(h, g, 0); }
      else if g == "F" { assert OccursAt(h, g, 1); }
      else if g == "m" { assert OccursAt(h, g, 2); }
      else if g == "f" { assert OccursAt(h, g, 3); }
      else if g == "MF" { assert OccursAt(h, g, 0); }
      else if g == "Fm" { assert OccursAt(h, g, 1); }
      else if g == "mf" { assert OccursAt(h, g, 2); }
      else if g == "MFm" { assert OccursAt(h, g, 0); }
      else if g == "Fmf" { assert OccursAt(h, g, 1); }
      else { assert OccursAt(h, g, 0); }
    }
  }

  /** Every gender the column declares valid passes the service's check; the
      converse fails: the empty string and "MF" pass the service, while
      "FM" and "X" are refused by both. */
  lemma GenderChecksCompared()
    ensures forall g :: DeclaredGenderValid(g) ==> ServiceGenderAccepts(g)
    ensures ServiceGenderAccepts("") && !DeclaredGenderValid("")
    ensures ServiceGenderAccepts("MF") && !DeclaredGenderValid("MF")
    ensures !ServiceGenderAccepts("FM") && !ServiceGenderAccepts("X")
  {
    forall g | DeclaredGenderValid(g) ensures ServiceGenderAccepts(g) {
      ServiceGenderAcceptsSubstrings(g);
      assert g == [g[0]];
    }
    ServiceGenderAcceptsSubstrings("");
    ServiceGenderAcceptsSubstrings("MF");
    ServiceGenderAcceptsSubstrings("FM");
    ServiceGenderAcceptsSubstrings("X");
  }

  /** The service only asks that a name not be blank: a 101-letter name
      passes it although the column declares at most 100 characters. */
  lemma LongNamePassesService()
    ensures var s := seq(101, i => 'a'); !IsBlank(s) && !DeclaredNameValid(s)
  {
    var s := seq(101, i => 'a');
    assert s[0] == 'a';
  }
}

=== FILE: patient_repository.dfy ===
/** PatientRepository: last-name search, national-id lookup and the full
    record of one patient (histories, examinations with their images,
    prescriptions). */
module PatientRepository {
  import opened Outcomes
  import opened Text
  import opened Records
  import opened Tabular
  import opened Store
  import Repository

  /** The search criterion: the query occurs in the last name once both are
      lower-cased. */
  predicate LastNameMatches(p: Patient, query: string)
  {
    Contains(ToLower(p.lastName), ToLower(query))
  }

  /** The ids of the patients the search matches. */
  function MatchingIds(t: Tables, query: string): set<int>
  {
    set k | k in t.patients && LastNameMatches(t.patients[k], query)
  }

  /** SearchByLastNameAsync: every stored patient whose last name contains the
      query, ignoring case, once each, and no one else. */
  function SearchByLastName(t: Tables, query: string): (r: seq<Patient>)
    ensures forall p :: p in r <==> IsRowOf(t.patients, p) && LastNameMatches(p, query)
    ensures |r| == |MatchingIds(t, query)|
  {
    var matches := (p: Patient) => LastNameMatches(p, query);
    var r := Repository.Find(t.patients, matches);
    assert KeysWhere(t.patients, matches) == MatchingIds(t, query);
    r
  }

  /** The search does not depend on the case of the query. */
  lemma SearchIgnoresQueryCase(t: Tables, query: string)
    ensures forall p :: p in SearchByLastName(t, query) <==> p in SearchByLastName(t, ToLower(query))
  {
    ToLowerIdempotent(query);
  }

  /** A query that occurs in a stored last name finds that patient, whatever
      the case of either. */
  lemma SearchFindsOccurrence(t: Tables, k: int, query: string, at: int)
    requires k in t.patients
    requires OccursAt(ToLower(t.patients[k].lastName), ToLower(query), at)
    ensures t.patients[k] in SearchByLastName(t, query)
  {
    ContainsIffOccursAt(ToLower(t.patients[k].lastName), ToLower(query));
    assert IsRowOf(t.patients, t.patients[k]);
  }

  /** GetByPersonalIdNumberAsync (FirstOrDefault): a stored patient holding
      the national id, or nothing when no one holds it. */
  function ByNationalId(t: Tables, pin: string): (r: Option<Patient>)
    ensures r.Some? <==> NationalIdHeld(t.patients, pin)
    ensures r.Some? ==> IsRowOf(t.patients, r.value) && r.value.personalIdNumber == pin
  {
    var found := Repository.Find(t.patients, (p: Patient) => p.personalIdNumber == pin);
    assert NationalIdHeld(t.patients, pin) ==> |found| > 0 by {
      if NationalIdHeld(t.patients, pin) {
        var k :| k in t.patients && t.patients[k].personalIdNumber == pin;
        assert IsRowOf(t.patients, t.patients[k]);
        assert t.patients[k] in found;
      }
    }
    assert |found| > 0 ==> NationalIdHeld(t.patients, pin) by {
      if |found| > 0 {
        assert found[0] in found;
        var k :| k in t.patients && t.patients[k] == found[0];
      }
    }
    if |found| == 0 then None else Some(found[0])
  }

  /** With the unique index in force the lookup returns the one holder. */
  lemma ByNationalIdFindsTheHolder(t: Tables, k: int)
    requires Consistent(t)
    requires k in t.patients
    ensures ByNationalId(t, t.patients[k].personalIdNumber) == Some(t.patients[k])
  {
    var pin := t.patients[k].personalIdNumber;
    assert NationalIdHeld(t.patients, pin);
    var r := ByNationalId(t, pin);
    var j :| j in t.patients && t.patients[j] == r.value;
    assert j == k;
  }

  /** The service's duplicate test (the lookup finds a patient with another
      id) is the unique index's test on an update of patient `self`. */
  lemma ByNationalIdHeldByOther(t: Tables, pin: string, self: int)
    requires Consistent(t)
    ensures var r := ByNationalId(t, pin);
      r.Some? && r.value.id != self <==> NationalIdHeldByOther(t.patients, pin, self)
  {
    var r := ByNationalId(t, pin);
    if r.Some? {
      var k :| k in t.patients && t.patients[k] == r.value;
      if NationalIdHeldByOther(t.patients, pin, self) {
        var j :| j in t.patients && j != self && t.patients[j].personalIdNumber == pin;
        assert j == k;
      }
    }
  }

  datatype PatientDetails = PatientDetails(
    patient: Patient,
    histories: seq<MedicalHistory>,
    examinations: seq<Examination>,
    images: seq<MedicalImage>,
    prescriptions: seq<Prescription>)

  // The four navigations the full record includes, each once per row.

  function HistoriesOf(t: Tables, id: int): (r: seq<MedicalHistory>)
    ensures forall h :: h in r <==> IsRowOf(t.histories, h) && h.patientId == id
    ensures |r| == |HistoryIdsOf(t, id)|
  {
    var ofPatient := (h: MedicalHistory) => h.patientId == id;
    assert KeysWhere(t.histories, ofPatient) == HistoryIdsOf(t, id);
    Repository.Find(t.histories, ofPatient)
  }

  function ExaminationsOf(t: Tables, id: int): (r: seq<Examination>)
    ensures forall e :: e in r <==> IsRowOf(t.examinations, e) && e.patientId == id
    ensures |r| == |ExaminationIdsOf(t, id)|
  {
    var ofPatient := (e: Examination) => e.patientId == id;
    assert KeysWhere(t.examinations, ofPatient) == ExaminationIdsOf(t, id);
    Repository.Find(t.examinations, ofPatient)
  }

  function ImagesOf(t: Tables, exams: set<int>): (r: seq<MedicalImage>)
    ensures forall i :: i in r <==> IsRowOf(t.images, i) && i.examinationId in exams
    ensures |r| == |ImageIdsOf(t, exams)|
  {
    var ofExaminations := (i: MedicalImage) => i.examinationId in exams;
    assert KeysWhere(t.images, ofExaminations) == ImageIdsOf(t, exams);
    Repository.Find(t.images, ofExaminations)
  }

  function PrescriptionsOf(t: Tables, id: int): (r: seq<Prescription>)
    ensures forall p :: p in r <==> IsRowOf(t.prescriptions, p) && p.patientId == id
    ensures |r| == |PrescriptionIdsOf(t, id)|
  {
    var ofPatient := (p: Prescription) => p.patientId == id;
    assert KeysWhere(t.prescriptions, ofPatient) == PrescriptionIdsOf(t, id);
    Repository.Find(t.prescriptions, ofPatient)
  }

  /** GetPatientWithFullDetailsAsync: the patient with their histories, their
      examinations and the images of those examinations, and their
      prescriptions, each row once; nothing when the id is not stored. */
  function WithFullDetails(t: Tables, id: int): (r: Option<PatientDetails>)
    ensures r.Some? <==> id in t.patients
    ensures r.Some? ==>
      && r.value.patient == t.patients[id]
      && (forall h :: h in r.value.histories <==> IsRowOf(t.histories, h) && h.patientId == id)
      && |r.value.histories| == |HistoryIdsOf(t, id)|
      && (forall e :: e in r.value.examinations <==> IsRowOf(t.examinations, e) && e.patientId == id)
      && |r.value.examinations| == |ExaminationIdsOf(t, id)|
      && (forall i :: i in r.value.images <==>
            IsRowOf(t.images, i) && i.examinationId in ExaminationIdsOf(t, id))
      && |r.value.images| == |ImageIdsOf(t, ExaminationIdsOf(t, id))|
      && (forall p :: p in r.value.prescriptions <==> IsRowOf(t.prescriptions, p) && p.patientId == id)
      && |r.value.prescriptions| == |PrescriptionIdsOf(t, id)|
  {
    if id !in t.patients then None
    else
      Some(PatientDetails(
        t.patients[id],
        HistoriesOf(t, id),
        ExaminationsOf(t, id),
        ImagesOf(t, ExaminationIdsOf(t, id)),
        PrescriptionsOf(t, id)))
  }

  /** Deleting the patient removes every row their full record shows. */
  lemma FullDetailsAreCascaded(t: Tables, id: int)
    requires Consistent(t)
    requires id in t.patients
    ensures var d := WithFullDetails(t, id).value;
      var c := PatientCascade(t, id);
      && id !in c.patients
      && (forall h :: h in d.histories ==> h.id !in c.histories)
      && (forall e :: e in d.examinations ==> e.id !in c.examinations)
      && (forall i :: i in d.images ==> i.id !in c.images)
      && (forall p :: p in d.prescriptions ==> p.id !in c.prescriptions)
  {
    HistoriesCascaded(t, id);
    ExaminationsCascaded(t, id);
    ImagesCascaded(t, id);
    PrescriptionsCascaded(t, id);
  }

  /** Their histories go with the patient. */
  lemma HistoriesCascaded(t: Tables, id: int)
    requires Consistent(t) && id in t.patients
    ensures forall h :: h in WithFullDetails(t, id).value.histories ==> h.id !in PatientCascade(t, id).histories
  {
    forall h | h in WithFullDetails(t, id).value.histories ensures h.id !in PatientCascade(t, id).histories {
      var k :| k in t.histories && t.histories[k] == h;
    }
  }

  /** Their examinations go with the patient. */
  lemma ExaminationsCascaded(t: Tables, id: int)
    requires Consistent(t) && id in t.patients
    ensures forall e :: e in WithFullDetails(t, id).value.examinations ==> e.id !in PatientCascade(t, id).examinations
  {
    forall e | e in WithFullDetails(t, id).value.examinations ensures e.id !in PatientCascade(t, id).examinations {
      var k :| k in t.examinations && t.examinations[k] == e;
      assert k in ExaminationIdsOf(t, id);
    }
  }

  /** The images of their examinations go with the patient. */
  lemma ImagesCascaded(t: Tables, id: int)
    requires Consistent(t) && id in t.patients
    ensures forall i :: i in WithFullDetails(t, id).value.images ==> i.id !in PatientCascade(t, id).images
  {
    forall i | i in WithFullDetails(t, id).value.images ensures i.id !in PatientCascade(t, id).images {
      var k :| k in t.images && t.images[k] == i;
    }
  }

  /** Their prescriptions go with the patient. */
  lemma PrescriptionsCascaded(t: Tables, id: int)
    requires Consistent(t) && id in t.patients
    ensures forall p :: p in WithFullDetails(t, id).value.prescriptions ==> p.id !in PatientCascade(t, id).prescriptions
  {
    forall p | p in WithFullDetails(t, id).value.prescriptions ensures p.id !in PatientCascade(t, id).prescriptions {
      var k :| k in t.prescriptions && t.prescriptions[k] == p;
    }
  }
}

=== FILE: patient_service.dfy ===
/** PatientService: the patient validator and the service operations over
    the store. */
module PatientService {
  import opened Outcomes
  import opened Dates
  import opened Text
  import opened Records
  import opened Tabular
  import opened Store
  import opened PatientModel
  import PatientRepository

  /** The rules of ValidatePatient, in the order they are checked. */
  const PatientRules: seq<Violation> :=
    [FirstNameRequired, LastNameRequired, PersonalIdRequired, PersonalIdNotElevenDigits,
     BirthDateNotInPast, GenderNotMOrF]

  /** The condition behind each rule. */
  predicate PatientRuleHolds(p: Patient, now: DateTime, rule: Violation)
  {
    match rule
    case FirstNameRequired => !IsBlank(p.firstName)
    case LastNameRequired => !IsBlank(p.lastName)
    case PersonalIdRequired => !IsBlank(p.personalIdNumber)
    case PersonalIdNotElevenDigits => |p.personalIdNumber| == 11 && AllDigits(p.personalIdNumber)
    case BirthDateNotInPast => Earlier(p.dateOfBirth, now)
    case GenderNotMOrF => ServiceGenderAccepts(p.gender)
    case _ => true
  }

  /** ValidatePatient at the instant `now` (DateTime.Now): a patient passes
      when both names are present, the national id is eleven digits, the
      birth date lies strictly before now and the gender passes
      "MFmf".Contains; otherwise the first broken rule is reported. */
  function ValidatePatient(p: Patient, now: DateTime): (c: Check)
    ensures c.Pass? <==>
      && !IsBlank(p.firstName) && !IsBlank(p.lastName)
      && DeclaredNationalIdValid(p.personalIdNumber)
      && Earlier(p.dateOfBirth, now)
      && ServiceGenderAccepts(p.gender)
    ensures c.Fail? ==> c.rule in PatientRules && !PatientRuleHolds(p, now, c.rule)
  {
    NationalIdChecksMatchDeclaration(p.personalIdNumber);
    FirstFailure(PatientRules, rule => PatientRuleHolds(p, now, rule))
  }

  /** A birth date equal to now is refused: "in the past" is strict. */
  lemma BornNowIsRefused(p: Patient, now: DateTime)
    requires !IsBlank(p.firstName) && !IsBlank(p.lastName)
    requires DeclaredNationalIdValid(p.personalIdNumber)
    requires p.dateOfBirth == now
    ensures ValidatePatient(p, now) == Fail(BirthDateNotInPast)
  {
    NationalIdChecksMatchDeclaration(p.personalIdNumber);
    OrdinalIsChronological(now, now);
    FirstFailureIsFirst(PatientRules, rule => PatientRuleHolds(p, now, rule), 4);
  }

  /** A first name that is blank is reported before anything else, whatever
      the other fields hold. */
  lemma BlankFirstNameReportedFirst(p: Patient, now: DateTime)
    requires IsBlank(p.firstName)
    ensures ValidatePatient(p, now) == Fail(FirstNameRequired)
  {
    FirstFailureIsFirst(PatientRules, rule => PatientRuleHolds(p, now, rule), 0);
  }

  /** A national id of ten digits passes the "required" rule and is reported
      as not eleven digits. */
  lemma TenDigitIdReportedAsLength(p: Patient, now: DateTime)
    requires !IsBlank(p.firstName) && !IsBlank(p.lastName)
    requires |p.personalIdNumber| == 10 && AllDigits(p.personalIdNumber)
    ensures ValidatePatient(p, now) == Fail(PersonalIdNotElevenDigits)
  {
    assert !IsWhiteSpace(p.personalIdNumber[0]);
    FirstFailureIsFirst(PatientRules, rule => PatientRuleHolds(p, now, rule), 3);
  }

  /** An empty gender passes the service's check. */
  lemma EmptyGenderPasses(p: Patient, now: DateTime)
    requires !IsBlank(p.firstName) && !IsBlank(p.lastName)
    requires DeclaredNationalIdValid(p.personalIdNumber)
    requires Earlier(p.dateOfBirth, now)
    requires p.gender == ""
    ensures ValidatePatient(p, now) == Pass
  {
    GenderChecksCompared();
  }

  class PatientService {
    const store: MedicalStore

    constructor (store: MedicalStore)
      ensures this.store == store
    {
      this.store := store;
    }

    /** GetAllPatientsAsync. */
    method GetAllPatients() returns (r: seq<Patient>)
      ensures forall p :: p in r <==> IsRowOf(store.patients, p)
      ensures |r| == |store.patients|
    {
      r := Rows(store.patients);
      forall p ensures p in r <==> IsRowOf(store.patients, p) {
        InRowsIffRowOf(store.patients, p);
      }
    }

    /** GetPatientByIdAsync: the stored patient, or NotFound. */
    method GetPatientById(id: int) returns (r: Outcome<Patient>)
      ensures id in store.patients ==> r == Ok(store.patients[id])
      ensures id !in store.patients ==> r == NotFound
    {
      if id !in store.patients {
        return NotFound;
      }
      r := Ok(store.patients[id]);
    }

    /** GetPatientWithFullDetailsAsync: the full record, or NotFound. */
    method GetPatientWithFullDetails(id: int) returns (r: Outcome<PatientRepository.PatientDetails>)
      ensures id !in store.patients ==> r == NotFound
      ensures id in store.patients ==> r.Ok? && PatientRepository.WithFullDetails(store.Snapshot(), id) == Some(r.value)
    {
      var d := PatientRepository.WithFullDetails(store.Snapshot(), id);
      if d.None? {
        return NotFound;
      }
      r := Ok(d.value);
    }

    /** GetPatientByPersonalIdNumberAsync: the one patient holding the id, or
        NotFound when nobody does. */
    method GetPatientByPersonalIdNumber(pin: string) returns (r: Outcome<Patient>)
      requires store.Valid()
      ensures !NationalIdHeld(store.patients, pin) ==> r == NotFound
      ensures forall k :: k in store.patients && store.patients[k].personalIdNumber == pin ==>
        r == Ok(store.patients[k])
    {
      var found := PatientRepository.ByNationalId(store.Snapshot(), pin);
      if found.None? {
        return NotFound;
      }
      r := Ok(found.value);
      forall k | k in store.patients && store.patients[k].personalIdNumber == pin
        ensures r == Ok(store.patients[k])
      {
        PatientRepository.ByNationalIdFindsTheHolder(store.Snapshot(), k);
      }
    }

    /** SearchPatientsByLastNameAsync: a blank query is refused; otherwise the
        patients whose last name contains the query, ignoring case, once
        each. */
    method SearchPatientsByLastName(query: string) returns (r: Outcome<seq<Patient>>)
      ensures IsBlank(query) ==> r == Invalid(LastNameQueryBlank)
      ensures !IsBlank(query) ==>
        && r.Ok?
        && (forall p :: p in r.value <==> IsRowOf(store.patients, p) && PatientRepository.LastNameMatches(p, query))
        && |r.value| == |PatientRepository.MatchingIds(store.Snapshot(), query)|
    {
      if IsBlank(query) {
        return Invalid(LastNameQueryBlank);
      }
      r := Ok(PatientRepository.SearchByLastName(store.Snapshot(), query));
    }

    /** CreatePatientAsync: validate, refuse a national id already held, then
        add with the next id; a value wider than its column makes the insert
        fail. */
    method CreatePatient(p: Patient, now: DateTime) returns (r: Outcome<Patient>)
      requires store.Valid()
      modifies store
      ensures store.Valid()
      ensures ValidatePatient(p, now).Fail? ==> r == Invalid(ValidatePatient(p, now).rule) && unchanged(store)
      ensures ValidatePatient(p, now).Pass? && NationalIdHeld(old(store.patients), p.personalIdNumber) ==>
        r == Conflict && unchanged(store)
      ensures (ValidatePatient(p, now).Pass? && !NationalIdHeld(old(store.patients), p.personalIdNumber)
               && !PatientFits(p)) ==>
        && r == StoreFailure
        && store.Snapshot() == old(store.Snapshot())
        && store.NextIds() == old(store.NextIds()).(patient := old(store.nextPatientId) + 1)
      ensures (ValidatePatient(p, now).Pass? && !NationalIdHeld(old(store.patients), p.personalIdNumber)
               && PatientFits(p)) ==>
        && r == Ok(p.(id := old(store.nextPatientId)))
        && store.Snapshot() == old(store.Snapshot()).(patients := old(store.patients)[old(store.nextPatientId) := r.value])
        && store.NextIds() == old(store.NextIds()).(patient := old(store.nextPatientId) + 1)
    {
      var c := ValidatePatient(p, now);
      if c.Fail? {
        return Invalid(c.rule);
      }
      var existing := PatientRepository.ByNationalId(store.Snapshot(), p.personalIdNumber);
      if existing.Some? {
        return Conflict;
      }
      r := store.AddPatient(p);
    }

    /** UpdatePatientAsync: validate first, then NotFound, then refuse a
        national id held by another patient, then write the whole record; a
        lost race or a value wider than its column is Conflict. */
    method UpdatePatient(p: Patient, now: DateTime, raced: bool) returns (r: Outcome<()>)
      requires store.Valid()
      modifies store
      ensures store.Valid() && store.NextIds() == old(store.NextIds())
      ensures ValidatePatient(p, now).Fail? ==> r == Invalid(ValidatePatient(p, now).rule) && unchanged(store)
      ensures ValidatePatient(p, now).Pass? && p.id !in old(store.patients) ==> r == NotFound && unchanged(store)
      ensures (ValidatePatient(p, now).Pass? && p.id in old(store.patients) &&
               (raced || !PatientFits(p) || NationalIdHeldByOther(old(store.patients), p.personalIdNumber, p.id))) ==>
        r == Conflict && unchanged(store)
      ensures (ValidatePatient(p, now).Pass? && p.id in old(store.patients) &&
               !raced && PatientFits(p) && !NationalIdHeldByOther(old(store.patients), p.personalIdNumber, p.id)) ==>
        r == Ok(()) && store.Snapshot() == old(store.Snapshot()).(patients := old(store.patients)[p.id := p])
    {
      var before := store.Snapshot();
      var c := ValidatePatient(p, now);
      if c.Fail? {
        return Invalid(c.rule);
      }
      if p.id !in store.patients {
        return NotFound;
      }
      var same := PatientRepository.ByNationalId(before, p.personalIdNumber);
      PatientRepository.ByNationalIdHeldByOther(before, p.personalIdNumber, p.id);
      if same.Some? && same.value.id != p.id {
        return Conflict;
      }
      r := store.UpdatePatient(p, raced);
    }

    /** DeletePatientAsync: NotFound, or the patient and everything that
        depends on them is removed. */
    method DeletePatient(id: int) returns (r: Outcome<()>)
      requires store.Valid()
      modifies store
      ensures store.Valid() && store.NextIds() == old(store.NextIds())
      ensures id !in old(store.patients) ==> r == NotFound && unchanged(store)
      ensures id in old(store.patients) ==> r == Ok(()) && store.Snapshot() == PatientCascade(old(store.Snapshot()), id)
    {
      if id !in store.patients {
        return NotFound;
      }
      r := store.DeletePatient(id);
    }
  }
}

=== FILE: prescription_repository.dfy ===
/** PrescriptionRepository: prescriptions by patient, by doctor and in all,
    latest prescription date first. */
module PrescriptionRepository {
  import opened Dates
  import opened Records
  import opened Tabular
  import opened Store

  function PrescribedAt(p: Prescription): DateTime
  {
    p.prescriptionDate
  }

  /** GetPrescriptionsByPatientAsync: the patient's prescriptions, once
      each, latest first. */
  function ByPatient(t: Tables, patientId: int): (r: seq<Prescription>)
    ensures forall p :: p in r <==> IsRowOf(t.prescriptions, p) && p.patientId == patientId
    ensures |r| == |PrescriptionIdsOf(t, patientId)|
    ensures forall i, j :: 0 <= i < j < |r| ==> !Earlier(r[i].prescriptionDate, r[j].prescriptionDate)
  {
    var ofPatient := (p: Prescription) => p.patientId == patientId;
    var r := OrderedByDate(t.prescriptions, ofPatient, PrescribedAt);
    assert KeysWhere(t.prescriptions, ofPatient) == PrescriptionIdsOf(t, patientId);
    r
  }

  /** GetPrescriptionsByDoctorAsync: the doctor's prescriptions, once each,
      latest first. */
  function ByDoctor(t: Tables, doctorId: int): (r: seq<Prescription>)
    ensures forall p :: p in r <==> IsRowOf(t.prescriptions, p) && p.doctorId == doctorId
    ensures |r| == |PrescriptionIdsByDoctor(t, doctorId)|
    ensures forall i, j :: 0 <= i < j < |r| ==> !Earlier(r[i].prescriptionDate, r[j].prescriptionDate)
  {
    var byDoctor := (p: Prescription) => p.doctorId == doctorId;
    var r := OrderedByDate(t.prescriptions, byDoctor, PrescribedAt);
    assert KeysWhere(t.prescriptions, byDoctor) == PrescriptionIdsByDoctor(t, doctorId);
    r
  }

  /** GetAllAsync: every stored prescription, once each, latest first. */
  function All(t: Tables): (r: seq<Prescription>)
    ensures forall p :: p in r <==> IsRowOf(t.prescriptions, p)
    ensures |r| == |t.prescriptions|
    ensures forall i, j :: 0 <= i < j < |r| ==> !Earlier(r[i].prescriptionDate, r[j].prescriptionDate)
  {
    AllByDate(t.prescriptions, PrescribedAt)
  }
}

=== FILE: prescription_service.dfy ===
/** PrescriptionService: the prescription validator and the service
    operations over the store. */
module PrescriptionService {
  import opened Outcomes
  import opened Dates
  import opened Text
  import opened Records
  import opened Tabular
  import opened Store
  import PrescriptionRepository

  /** The rules of ValidatePrescriptionAsync, in the order they are checked. */
  const PrescriptionRules: seq<Violation> :=
    [MedicationRequired, DosageRequired, InstructionsRequired,
     PatientUnknown, DoctorUnknown, ExaminationUnknown,
     PrescriptionDateInFuture, PrescriptionPatientMismatch, PrescriptionDoctorMismatch]

  /** The condition behind each rule; `now` is DateTime.UtcNow. The two
      mismatch rules are only reached once the examination is known. */
  predicate PrescriptionRuleHolds(p: Prescription, t: Tables, now: DateTime, rule: Violation)
  {
    match rule
    case MedicationRequired => !IsBlank(p.medication)
    case DosageRequired => !IsBlank(p.dosage)
    case InstructionsRequired => !IsBlank(p.instructions)
    case PatientUnknown => p.patientId in t.patients
    case DoctorUnknown => p.doctorId in t.doctors
    case ExaminationUnknown => p.examinationId in t.examinations
    case PrescriptionDateInFuture => !Earlier(now, p.prescriptionDate)
    case PrescriptionPatientMismatch =>
      p.examinationId in t.examinations ==> t.examinations[p.examinationId].patientId == p.patientId
    case PrescriptionDoctorMismatch =>
      p.examinationId in t.examinations ==> t.examinations[p.examinationId].doctorId == p.doctorId
    case _ => true
  }

  /** The examination a prescription names was made on its patient by its
      doctor. */
  predicate MatchesExamination(p: Prescription, t: Tables)
  {
    && p.examinationId in t.examinations
    && t.examinations[p.examinationId].patientId == p.patientId
    && t.examinations[p.examinationId].doctorId == p.doctorId
  }

  /** ValidatePrescriptionAsync: a prescription passes when medication,
      dosage and instructions are present, its patient, doctor and
      examination are stored, it is dated no later than now, and the
      examination was made on the same patient by the same doctor. */
  function ValidatePrescription(p: Prescription, t: Tables, now: DateTime): (c: Check)
    ensures c == Pass <==>
      && !IsBlank(p.medication) && !IsBlank(p.dosage) && !IsBlank(p.instructions)
      && PrescriptionRefsResolve(t, p)
      && !Earlier(now, p.prescriptionDate)
      && MatchesExamination(p, t)
    ensures c.Fail? ==> c.rule in PrescriptionRules && !PrescriptionRuleHolds(p, t, now, c.rule)
  {
    AllPrescriptionRulesHold(p, t, now);
    FirstFailure(PrescriptionRules, rule => PrescriptionRuleHolds(p, t, now, rule))
  }

  /** Every rule holds exactly when the prescription meets all nine
      conditions together. */
  lemma AllPrescriptionRulesHold(p: Prescription, t: Tables, now: DateTime)
    ensures (forall i :: 0 <= i < |PrescriptionRules| ==> PrescriptionRuleHolds(p, t, now, PrescriptionRules[i])) <==>
      && !IsBlank(p.medication) && !IsBlank(p.dosage) && !IsBlank(p.instructions)
      && PrescriptionRefsResolve(t, p)
      && !Earlier(now, p.prescriptionDate)
      && MatchesExamination(p, t)
  {
    if forall i :: 0 <= i < |PrescriptionRules| ==> PrescriptionRuleHolds(p, t, now, PrescriptionRules[i]) {
      PrescriptionRulesGiveConditions(p, t, now);
    }
    if && !IsBlank(p.medication) && !IsBlank(p.dosage) && !IsBlank(p.instructions)
       && PrescriptionRefsResolve(t, p) && !Earlier(now, p.prescriptionDate) && MatchesExamination(p, t)
    {
      ConditionsGivePrescriptionRules(p, t, now);
    }
  }

  /** Every rule holding gives the nine conditions. */
  lemma PrescriptionRulesGiveConditions(p: Prescription, t: Tables, now: DateTime)
    requires forall i :: 0 <= i < |PrescriptionRules| ==> PrescriptionRuleHolds(p, t, now, PrescriptionRules[i])
    ensures && !IsBlank(p.medication) && !IsBlank(p.dosage) && !IsBlank(p.instructions)
            && PrescriptionRefsResolve(t, p) && !Earlier(now, p.prescriptionDate) && MatchesExamination(p, t)
  {
    var rules := PrescriptionRules;
    assert PrescriptionRuleHolds(p, t, now, rules[0]) && PrescriptionRuleHolds(p, t, now, rules[1]);
    assert PrescriptionRuleHolds(p, t, now, rules[2]) && PrescriptionRuleHolds(p, t, now, rules[3]);
    assert PrescriptionRuleHolds(p, t, now, rules[4]) && PrescriptionRuleHolds(p, t, now, rules[5]);
    assert PrescriptionRuleHolds(p, t, now, rules[6]) && PrescriptionRuleHolds(p, t, now, rules[7]);
    assert PrescriptionRuleHolds(p, t, now, rules[8]);
  }

  /** The nine conditions together make every rule hold. */
  lemma ConditionsGivePrescriptionRules(p: Prescription, t: Tables, now: DateTime)
    requires !IsBlank(p.medication) && !IsBlank(p.dosage) && !IsBlank(p.instructions)
    requires PrescriptionRefsResolve(t, p) && !Earlier(now, p.prescriptionDate) && MatchesExamination(p, t)
    ensures forall i :: 0 <= i < |PrescriptionRules| ==> PrescriptionRuleHolds(p, t, now, PrescriptionRules[i])
  {
    var rules := PrescriptionRules;
    assert rules[0] == MedicationRequired && rules[1] == DosageRequired && rules[2] == InstructionsRequired;
    assert rules[3] == PatientUnknown && rules[4] == DoctorUnknown && rules[5] == ExaminationUnknown;
    assert rules[6] == PrescriptionDateInFuture && rules[7] == PrescriptionPatientMismatch;
    assert rules[8] == PrescriptionDoctorMismatch;
  }

  /** With every stored examination naming a stored patient and doctor, the
      separate patient and doctor checks add nothing: the examination and the
      two match checks already imply them. */
  lemma ExaminationMatchImpliesReferences(p: Prescription, t: Tables, now: DateTime)
    requires Consistent(t)
    ensures ValidatePrescription(p, t, now) == Pass <==>
      && !IsBlank(p.medication) && !IsBlank(p.dosage) && !IsBlank(p.instructions)
      && !Earlier(now, p.prescriptionDate)
      && MatchesExamination(p, t)
  {
    if MatchesExamination(p, t) {
      assert ExaminationRefsResolve(t, t.examinations[p.examinationId]);
    }
  }

  /** Blank instructions are reported once medication and dosage are present. */
  lemma BlankInstructionsReported(p: Prescription, t: Tables, now: DateTime)
    requires !IsBlank(p.medication) && !IsBlank(p.dosage)
    requires IsBlank(p.instructions)
    ensures ValidatePrescription(p, t, now) == Fail(InstructionsRequired)
  {
    FirstFailureIsFirst(PrescriptionRules, rule => PrescriptionRuleHolds(p, t, now, rule), 2);
  }

  /** "In the future" is strict: a prescription dated exactly now passes. */
  lemma PrescribedNowAccepted(p: Prescription, t: Tables, now: DateTime)
    requires !IsBlank(p.medication) && !IsBlank(p.dosage) && !IsBlank(p.instructions)
    requires PrescriptionRefsResolve(t, p) && MatchesExamination(p, t)
    requires p.prescriptionDate == now
    ensures ValidatePrescription(p, t, now) == Pass
  {
    OrdinalIsChronological(now, now);
  }

  /** A prescription for another patient than the examination's is reported
      as a patient mismatch, ahead of a doctor mismatch. */
  lemma PatientMismatchReported(p: Prescription, t: Tables, now: DateTime)
    requires !IsBlank(p.medication) && !IsBlank(p.dosage) && !IsBlank(p.instructions)
    requires PrescriptionRefsResolve(t, p) && !Earlier(now, p.prescriptionDate)
    requires t.examinations[p.examinationId].patientId != p.patientId
    ensures ValidatePrescription(p, t, now) == Fail(PrescriptionPatientMismatch)
  {
    FirstFailureIsFirst(PrescriptionRules, rule => PrescriptionRuleHolds(p, t, now, rule), 7);
  }

  class PrescriptionService {
    const store: MedicalStore

    constructor (store: MedicalStore)
      ensures this.store == store
    {
      this.store := store;
    }

    /** GetAllPrescriptionsAsync: every prescription once, latest first. */
    method GetAllPrescriptions() returns (r: seq<Prescription>)
      ensures forall p :: p in r <==> IsRowOf(store.prescriptions, p)
      ensures |r| == |store.prescriptions|
      ensures forall i, j :: 0 <= i < j < |r| ==> !Earlier(r[i].prescriptionDate, r[j].prescriptionDate)
    {
      r := PrescriptionRepository.All(store.Snapshot());
    }

    /** GetPrescriptionByIdAsync: the stored prescription, or NotFound. */
    method GetPrescriptionById(id: int) returns (r: Outcome<Prescription>)
      ensures id in store.prescriptions ==> r == Ok(store.prescriptions[id])
      ensures id !in store.prescriptions ==> r == NotFound
    {
      if id !in store.prescriptions {
        return NotFound;
      }
      r := Ok(store.prescriptions[id]);
    }

    /** GetPrescriptionsByPatientAsync: NotFound for an unknown patient,
        otherwise the patient's prescriptions, once each, latest first. */
    method GetPrescriptionsByPatient(patientId: int) returns (r: Outcome<seq<Prescription>>)
      ensures patientId !in store.patients ==> r == NotFound
      ensures patientId in store.patients ==>
        && r.Ok?
        && (forall p :: p in r.value <==> IsRowOf(store.prescriptions, p) && p.patientId == patientId)
        && |r.value| == |PrescriptionIdsOf(store.Snapshot(), patientId)|
        && (forall i, j :: 0 <= i < j < |r.value| ==> !Earlier(r.value[i].prescriptionDate, r.value[j].prescriptionDate))
    {
      if patientId !in store.patients {
        return NotFound;
      }
      r := Ok(PrescriptionRepository.ByPatient(store.Snapshot(), patientId));
    }

    /** GetPrescriptionsByDoctorAsync: NotFound for an unknown doctor,
        otherwise the doctor's prescriptions, once each, latest first. */
    method GetPrescriptionsByDoctor(doctorId: int) returns (r: Outcome<seq<Prescription>>)
      ensures doctorId !in store.doctors ==> r == NotFound
      ensures doctorId in store.doctors ==>
        && r.Ok?
        && (forall p :: p in r.value <==> IsRowOf(store.prescriptions, p) && p.doctorId == doctorId)
        && |r.value| == |PrescriptionIdsByDoctor(store.Snapshot(), doctorId)|
        && (forall i, j :: 0 <= i < j < |r.value| ==> !Earlier(r.value[i].prescriptionDate, r.value[j].prescriptionDate))
    {
      if doctorId !in store.doctors {
        return NotFound;
      }
      r := Ok(PrescriptionRepository.ByDoctor(store.Snapshot(), doctorId));
    }

    /** CreatePrescriptionAsync: validate, then add with the next id. A
        prescription that passes validation names a stored examination,
        patient and doctor, so only a medication or dosage wider than its
        column makes the insert fail. */
    method CreatePrescription(p: Prescription, now: DateTime) returns (r: Outcome<Prescription>)
      requires store.Valid()
      modifies store
      ensures store.Valid()
      ensures ValidatePrescription(p, old(store.Snapshot()), now).Fail? ==>
        r == Invalid(ValidatePrescription(p, old(store.Snapshot()), now).rule) && unchanged(store)
      ensures ValidatePrescription(p, old(store.Snapshot()), now).Pass? && !PrescriptionFits(p) ==>
        && r == StoreFailure
        && store.Snapshot() == old(store.Snapshot())
        && store.NextIds() == old(store.NextIds()).(prescription := old(store.nextPrescriptionId) + 1)
      ensures ValidatePrescription(p, old(store.Snapshot()), now).Pass? && PrescriptionFits(p) ==>
        && r == Ok(p.(id := old(store.nextPrescriptionId)))
        && store.Snapshot() == old(store.Snapshot()).(prescriptions := old(store.prescriptions)[old(store.nextPrescriptionId) := r.value])
        && store.NextIds() == old(store.NextIds()).(prescription := old(store.nextPrescriptionId) + 1)
    {
      var c := ValidatePrescription(p, store.Snapshot(), now);
      if c.Fail? {
        return Invalid(c.rule);
      }
      assert PrescriptionRefsResolve(store.Snapshot(), p);
      r := store.AddPrescription(p);
    }

    /** UpdatePrescriptionAsync: NotFound first, then validate, then write the
        whole record; a lost race or a value wider than its column is
        Conflict. */
    method UpdatePrescription(p: Prescription, now: DateTime, raced: bool) returns (r: Outcome<()>)
      requires store.Valid()
      modifies store
      ensures store.Valid() && store.NextIds() == old(store.NextIds())
      ensures p.id !in old(store.prescriptions) ==> r == NotFound && unchanged(store)
      ensures (p.id in old(store.prescriptions) && ValidatePrescription(p, old(store.Snapshot()), now).Fail?) ==>
        r == Invalid(ValidatePrescription(p, old(store.Snapshot()), now).rule) && unchanged(store)
      ensures (p.id in old(store.prescriptions) && ValidatePrescription(p, old(store.Snapshot()), now).Pass? &&
               (raced || !PrescriptionFits(p))) ==>
        r == Conflict && unchanged(store)
      ensures (p.id in old(store.prescriptions) && ValidatePrescription(p, old(store.Snapshot()), now).Pass? &&
               !raced && PrescriptionFits(p)) ==>
        r == Ok(()) && store.Snapshot() == old(store.Snapshot()).(prescriptions := old(store.prescriptions)[p.id := p])
    {
      if p.id !in store.prescriptions {
        return NotFound;
      }
      var c := ValidatePrescription(p, store.Snapshot(), now);
      if c.Fail? {
        return Invalid(c.rule);
      }
      r := store.UpdatePrescription(p, raced);
    }

    /** DeletePrescriptionAsync: NotFound, or that one prescription is removed. */
    method DeletePrescription(id: int) returns (r: Outcome<()>)
      requires store.Valid()
      modifies store
      ensures store.Valid() && store.NextIds() == old(store.NextIds())
      ensures id !in old(store.prescriptions) ==> r == NotFound && unchanged(store)
      ensures id in old(store.prescriptions) ==>
        r == Ok(()) && store.Snapshot() == old(store.Snapshot()).(prescriptions := old(store.prescriptions) - {id})
    {
      if id !in store.prescriptions {
        return NotFound;
      }
      r := store.DeletePrescription(id);
    }

    /** ExportPrescriptionToPdfAsync: NotFound for an unknown prescription;
        for a stored one the export is not implemented and nothing is
        produced. */
    method ExportPrescriptionToPdf(id: int) returns (r: Outcome<seq<bv8>>)
      ensures id !in store.prescriptions ==> r == NotFound
      ensures id in store.prescriptions ==> r == Unimplemented
      ensures !r.Ok?
    {
      if id !in store.prescriptions {
        return NotFound;
      }
      r := Unimplemented;
    }
  }
}

=== FILE: records.dfy ===
/** The six stored record shapes. Navigation collections are not fields
    here: they are computed from the foreign keys by the repositories. */
module Records {
  import opened Dates
  import opened Outcomes

  datatype Patient = Patient(
    id: int,
    firstName: string,
    lastName: string,
    personalIdNumber: string,
    dateOfBirth: DateTime,
    gender: string)

  datatype Doctor = Doctor(
    id: int,
    firstName: string,
    lastName: string,
    specialization: string)

  datatype ExaminationType =
    | GP     // general physical examination
    | KRV    // blood test
    | XRAY
    | CT
    | MR
    | ULTRA  // ultrasound
    | EKG
    | ECHO
    | EYE
    | DERM
    | DENTA
    | MAMMO
    | NEURO

  datatype Examination = Examination(
    id: int,
    patientId: int,
    doctorId: int,
    examinationType: ExaminationType,
    examinationDateTime: DateTime,
    notes: string)

  /** A condition is active while endDate is None. */
  datatype MedicalHistory = MedicalHistory(
    id: int,
    patientId: int,
    diseaseName: string,
    startDate: DateTime,
    endDate: Option<DateTime>)

  datatype MedicalImage = MedicalImage(
    id: int,
    examinationId: int,
    fileName: string,
    fileType: string,
    uploadDateTime: DateTime)

  datatype Prescription = Prescription(
    id: int,
    examinationId: int,
    patientId: int,
    doctorId: int,
    medication: string,
    dosage: string,
    instructions: string,
    prescriptionDate: DateTime)

  // The string columns the [StringLength] annotations declare, created by
  // the migrations as character varying(n). A longer value makes the
  // database refuse the row, so SaveChanges throws DbUpdateException.
  // Notes and Instructions carry no length and are unbounded text.

  const NameWidth := 100
  const NationalIdWidth := 11
  const GenderWidth := 1
  const DiseaseNameWidth := 200
  const MedicationWidth := 200
  const DosageWidth := 100
  const FileNameWidth := 255
  const FileTypeWidth := 50

  predicate PatientFits(p: Patient)
  {
    && |p.firstName| <= NameWidth && |p.lastName| <= NameWidth
    && |p.personalIdNumber| <= NationalIdWidth && |p.gender| <= GenderWidth
  }

  predicate DoctorFits(d: Doctor)
  {
    |d.firstName| <= NameWidth && |d.lastName| <= NameWidth && |d.specialization| <= NameWidth
  }

  predicate HistoryFits(h: MedicalHistory)
  {
    |h.diseaseName| <= DiseaseNameWidth
  }

  predicate ImageFits(i: MedicalImage)
  {
    |i.fileName| <= FileNameWidth && |i.fileType| <= FileTypeWidth
  }

  predicate PrescriptionFits(p: Prescription)
  {
    |p.medication| <= MedicationWidth && |p.dosage| <= DosageWidth
  }
}

=== FILE: repository.dfy ===
/** The generic repository's read operations over one table. Rows come back
    in store order (ascending id); the mutating operations belong to the store. */
module Repository {
  import opened Outcomes
  import opened Tabular

  /** FindAsync(id): the row stored under id, or nothing. */
  function GetById<T>(m: map<int, T>, id: int): (r: Option<T>)
    ensures r.Some? <==> id in m
    ensures r.Some? ==> r.value == m[id]
  {
    if id in m then Some(m[id]) else None
  }

  /** FindAsync(predicate): the rows satisfying p, one per id, and nothing else. */
  function Find<T(!new)>(m: map<int, T>, p: T -> bool): (r: seq<T>)
    ensures |r| == |KeysWhere(m, p)|
    ensures forall x :: x in r <==> IsRowOf(m, x) && p(x)
  {
    var w := Where(m, p);
    var r := Rows(w);
    assert forall x :: x in r <==> IsRowOf(m, x) && p(x) by {
      forall x ensures x in r <==> IsRowOf(m, x) && p(x) {
        InRowsIffRowOf(w, x);
        WhereRows(m, p, x);
      }
    }
    WhereSize(m, p);
    r
  }

  /** ExistsAsync: a row is stored under id exactly when GetById finds one. */
  function Exists<T>(m: map<int, T>, id: int): (b: bool)
    ensures b <==> GetById(m, id).Some?
  {
    id in m
  }

  /** CountAsync: with no predicate the size of the table, with one the number
      of rows Find returns for it. */
  function Count<T(!new)>(m: map<int, T>, p: Option<T -> bool>): (n: nat)
    ensures p.None? ==> n == |Rows(m)|
    ensures p.Some? ==> n == |Find(m, p.value)|
  {
    if p.None? then |m| else |Where(m, p.value)|
  }
}

=== FILE: store.dfy ===
/** The entity store: the six tables of the database context with their
    relational rules (unique national id, restrict-delete on Doctor, cascade
    from Patient and from Examination), and the mutating half of the generic
    repository (add, full-record update, delete). */
module Store {
  import opened Outcomes
  import opened Records

  datatype Tables = Tables(
    patients: map<int, Patient>,
    doctors: map<int, Doctor>,
    examinations: map<int, Examination>,
    histories: map<int, MedicalHistory>,
    images: map<int, MedicalImage>,
    prescriptions: map<int, Prescription>)

  /** Some stored patient other than `self` holds this national id. */
  predicate NationalIdHeldByOther(patients: map<int, Patient>, pin: string, self: int)
  {
    exists k :: k in patients && k != self && patients[k].personalIdNumber == pin
  }

  /** Some stored patient holds this national id. */
  predicate NationalIdHeld(patients: map<int, Patient>, pin: string)
  {
    exists k :: k in patients && patients[k].personalIdNumber == pin
  }

  // The foreign keys of one row, checked against the tables.

  predicate ExaminationRefsResolve(t: Tables, e: Examination)
  {
    e.patientId in t.patients && e.doctorId in t.doctors
  }

  predicate HistoryRefsResolve(t: Tables, h: MedicalHistory)
  {
    h.patientId in t.patients
  }

  predicate ImageRefsResolve(t: Tables, i: MedicalImage)
  {
    i.examinationId in t.examinations
  }

  predicate PrescriptionRefsResolve(t: Tables, p: Prescription)
  {
    p.examinationId in t.examinations && p.patientId in t.patients && p.doctorId in t.doctors
  }

  /** Every row is stored under its own id. */
  ghost predicate KeyedById(t: Tables)
  {
    && (forall k :: k in t.patients ==> t.patients[k].id == k)
    && (forall k :: k in t.doctors ==> t.doctors[k].id == k)
    && (forall k :: k in t.examinations ==> t.examinations[k].id == k)
    && (forall k :: k in t.histories ==> t.histories[k].id == k)
    && (forall k :: k in t.images ==> t.images[k].id == k)
    && (forall k :: k in t.prescriptions ==> t.prescriptions[k].id == k)
  }

  /** The unique index on Patient.PersonalIdNumber. */
  ghost predicate UniqueNationalIds(patients: map<int, Patient>)
  {
    forall a, b ::
      a in patients && b in patients && patients[a].personalIdNumber == patients[b].personalIdNumber ==> a == b
  }

  /** Every foreign key names a stored row. */
  ghost predicate ReferencesResolve(t: Tables)
  {
    && (forall k :: k in t.examinations ==> ExaminationRefsResolve(t, t.examinations[k]))
    && (forall k :: k in t.histories ==> HistoryRefsResolve(t, t.histories[k]))
    && (forall k :: k in t.images ==> ImageRefsResolve(t, t.images[k]))
    && (forall k :: k in t.prescriptions ==> PrescriptionRefsResolve(t, t.prescriptions[k]))
  }

  ghost predicate Consistent(t: Tables)
  {
    KeyedById(t) && UniqueNationalIds(t.patients) && ReferencesResolve(t)
  }

  /** Some examination or prescription names this doctor: the restrict rule
      refuses to delete such a doctor. */
  predicate DoctorReferenced(t: Tables, doctorId: int)
  {
    || (exists k :: k in t.examinations && t.examinations[k].doctorId == doctorId)
    || (exists k :: k in t.prescriptions && t.prescriptions[k].doctorId == doctorId)
  }

  /** Deleting an examination removes it, its images and its prescriptions:
      no row that is left names the examination. */
  function ExaminationCascade(t: Tables, examinationId: int): (r: Tables)
    ensures examinationId !in r.examinations
    ensures forall k :: k in r.images ==> r.images[k].examinationId != examinationId
    ensures forall k :: k in r.prescriptions ==> r.prescriptions[k].examinationId != examinationId
  {
    t.(examinations := t.examinations - {examinationId},
       images := map k | k in t.images && t.images[k].examinationId != examinationId :: t.images[k],
       prescriptions := map k | k in t.prescriptions && t.prescriptions[k].examinationId != examinationId
                          :: t.prescriptions[k])
  }

  /** The examinations of one patient. */
  function ExaminationIdsOf(t: Tables, patientId: int): set<int>
  {
    set k | k in t.examinations && t.examinations[k].patientId == patientId
  }

  /** The histories of one patient. */
  function HistoryIdsOf(t: Tables, patientId: int): set<int>
  {
    set k | k in t.histories && t.histories[k].patientId == patientId
  }

  /** The histories of one patient that have no end date. */
  function ActiveHistoryIdsOf(t: Tables, patientId: int): set<int>
  {
    set k | k in t.histories && t.histories[k].patientId == patientId && t.histories[k].endDate.None?
  }

  /** The examinations made by one doctor. */
  function ExaminationIdsByDoctor(t: Tables, doctorId: int): set<int>
  {
    set k | k in t.examinations && t.examinations[k].doctorId == doctorId
  }

  /** The images of one examination. */
  function ImageIdsOfExamination(t: Tables, examinationId: int): set<int>
  {
    set k | k in t.images && t.images[k].examinationId == examinationId
  }

  /** The images attached to any of the given examinations. */
  function ImageIdsOf(t: Tables, examinationIds: set<int>): set<int>
  {
    set k | k in t.images && t.images[k].examinationId in examinationIds
  }

  /** The prescriptions of one patient. */
  function PrescriptionIdsOf(t: Tables, patientId: int): set<int>
  {
    set k | k in t.prescriptions && t.prescriptions[k].patientId == patientId
  }

  /** The prescriptions written by one doctor. */
  function PrescriptionIdsByDoctor(t: Tables, doctorId: int): set<int>
  {
    set k | k in t.prescriptions && t.prescriptions[k].doctorId == doctorId
  }

  /** The prescriptions issued at one examination. */
  function PrescriptionIdsOfExamination(t: Tables, examinationId: int): set<int>
  {
    set k | k in t.prescriptions && t.prescriptions[k].examinationId == examinationId
  }

  /** Deleting a patient removes the patient, their histories, examinations and
      prescriptions, and through the examinations every image and prescription
      attached to one of those examinations. No row that is left names the
      patient, and the doctors are untouched. */
  function PatientCascade(t: Tables, patientId: int): (r: Tables)
    ensures patientId !in r.patients && r.doctors == t.doctors
    ensures forall k :: k in r.examinations ==> r.examinations[k].patientId != patientId
    ensures forall k :: k in r.histories ==> r.histories[k].patientId != patientId
    ensures forall k :: k in r.prescriptions ==> r.prescriptions[k].patientId != patientId
  {
    var gone := ExaminationIdsOf(t, patientId);
    t.(patients := t.patients - {patientId},
       examinations := map k | k in t.examinations && k !in gone :: t.examinations[k],
       histories := map k | k in t.histories && t.histories[k].patientId != patientId :: t.histories[k],
       images := map k | k in t.images && t.images[k].examinationId !in gone :: t.images[k],
       prescriptions := map k | k in t.prescriptions && t.prescriptions[k].patientId != patientId &&
                          t.prescriptions[k].examinationId !in gone :: t.prescriptions[k])
  }

  /** The examination cascade leaves no dangling reference and removes nothing
      that did not depend on the examination. */
  lemma ExaminationCascadeExact(t: Tables, examinationId: int)
    requires Consistent(t)
    ensures Consistent(ExaminationCascade(t, examinationId))
    ensures var r := ExaminationCascade(t, examinationId);
      && r.patients == t.patients && r.doctors == t.doctors && r.histories == t.histories
      && (forall k :: k in r.images <==> k in t.images && t.images[k].examinationId in r.examinations)
      && (forall k :: k in r.prescriptions <==>
            k in t.prescriptions && t.prescriptions[k].examinationId in r.examinations)
  {
  }

  /** The patient cascade only removes rows and leaves no dangling reference. */
  lemma PatientCascadeConsistent(t: Tables, patientId: int)
    requires Consistent(t)
    ensures Consistent(PatientCascade(t, patientId))
    ensures var r := PatientCascade(t, patientId);
      && r.patients.Keys <= t.patients.Keys && r.examinations.Keys <= t.examinations.Keys
      && r.histories.Keys <= t.histories.Keys && r.images.Keys <= t.images.Keys
      && r.prescriptions.Keys <= t.prescriptions.Keys
  {
    var r := PatientCascade(t, patientId);
    assert ReferencesResolve(r) by {
      forall k | k in r.images ensures ImageRefsResolve(r, r.images[k]) {
        var e := t.images[k].examinationId;
        assert e in t.examinations && e !in ExaminationIdsOf(t, patientId);
      }
      forall k | k in r.prescriptions ensures PrescriptionRefsResolve(r, r.prescriptions[k]) {
        var e := t.prescriptions[k].examinationId;
        assert e in t.examinations && e !in ExaminationIdsOf(t, patientId);
      }
    }
  }

  /** The patient cascade leaves no dangling reference: an image survives
      exactly when its examination does, a prescription exactly when its
      patient and its examination do, a history or an examination exactly
      when its patient does. Doctors and the other patients are untouched. */
  lemma PatientCascadeExact(t: Tables, patientId: int)
    requires Consistent(t)
    ensures Consistent(PatientCascade(t, patientId))
    ensures var r := PatientCascade(t, patientId);
      && r.doctors == t.doctors
      && (forall k :: k in r.patients <==> k in t.patients && k != patientId)
      && (forall k :: k in r.patients ==> r.patients[k] == t.patients[k])
      && (forall k :: k in r.examinations <==>
            k in t.examinations && t.examinations[k].patientId in r.patients)
      && (forall k :: k in r.histories <==> k in t.histories && t.histories[k].patientId in r.patients)
      && (forall k :: k in r.images <==> k in t.images && t.images[k].examinationId in r.examinations)
      && (forall k :: k in r.prescriptions <==>
            k in t.prescriptions && t.prescriptions[k].patientId in r.patients &&
            t.prescriptions[k].examinationId in r.examinations)
  {
    PatientCascadeConsistent(t, patientId);
  }

  /** Ids of a table lie in [1, next), so `next` is fresh. */
  ghost predicate IdsBelow<T>(m: map<int, T>, next: int)
  {
    1 <= next && forall k :: k in m ==> 1 <= k < next
  }

  /** Inserting the next id keeps every id below the new counter. */
  lemma IdsBelowInsert<T>(m: map<int, T>, next: int, v: T)
    requires IdsBelow(m, next)
    ensures IdsBelow(m[next := v], next + 1)
  {
  }

  /** Removing rows keeps every id below the counter. */
  lemma IdsBelowShrink<T>(m: map<int, T>, m': map<int, T>, next: int)
    requires IdsBelow(m, next) && m'.Keys <= m.Keys
    ensures IdsBelow(m', next)
  {
  }

  /** A new examination under a fresh id whose patient and doctor exist keeps
      the tables consistent. */
  lemma ExaminationInsertConsistent(t: Tables, e: Examination)
    requires Consistent(t) && ExaminationRefsResolve(t, e) && e.id !in t.examinations
    ensures Consistent(t.(examinations := t.examinations[e.id := e]))
  {
  }

  /** A new history under a fresh id whose patient exists keeps the tables
      consistent. */
  lemma HistoryInsertConsistent(t: Tables, h: MedicalHistory)
    requires Consistent(t) && HistoryRefsResolve(t, h) && h.id !in t.histories
    ensures Consistent(t.(histories := t.histories[h.id := h]))
  {
  }

  /** A new image under a fresh id whose examination exists keeps the tables
      consistent. */
  lemma ImageInsertConsistent(t: Tables, i: MedicalImage)
    requires Consistent(t) && ImageRefsResolve(t, i) && i.id !in t.images
    ensures Consistent(t.(images := t.images[i.id := i]))
  {
  }

  /** A new prescription under a fresh id whose examination, patient and
      doctor exist keeps the tables consistent. */
  lemma PrescriptionInsertConsistent(t: Tables, p: Prescription)
    requires Consistent(t) && PrescriptionRefsResolve(t, p) && p.id !in t.prescriptions
    ensures Consistent(t.(prescriptions := t.prescriptions[p.id := p]))
  {
  }

  /** The value each table's identity sequence gives out next. */
  datatype Counters = Counters(patient: int, doctor: int, examination: int, history: int, image: int, prescription: int)

  class MedicalStore {
    var patients: map<int, Patient>
    var doctors: map<int, Doctor>
    var examinations: map<int, Examination>
    var histories: map<int, MedicalHistory>
    var images: map<int, MedicalImage>
    var prescriptions: map<int, Prescription>
    // One identity sequence per table: the value the next insert draws.
    var nextPatientId: int
    var nextDoctorId: int
    var nextExaminationId: int
    var nextHistoryId: int
    var nextImageId: int
    var nextPrescriptionId: int

    function Snapshot(): Tables
      reads this
    {
      Tables(patients, doctors, examinations, histories, images, prescriptions)
    }

    function NextIds(): Counters
      reads this
    {
      Counters(nextPatientId, nextDoctorId, nextExaminationId, nextHistoryId, nextImageId, nextPrescriptionId)
    }

    ghost predicate Valid()
      reads this
    {
      && Consistent(Snapshot())
      && IdsBelow(patients, nextPatientId)
      && IdsBelow(doctors, nextDoctorId)
      && IdsBelow(examinations, nextExaminationId)
      && IdsBelow(histories, nextHistoryId)
      && IdsBelow(images, nextImageId)
      && IdsBelow(prescriptions, nextPrescriptionId)
    }

    constructor ()
      ensures Valid()
      ensures Snapshot() == Tables(map[], map[], map[], map[], map[], map[])
      ensures NextIds() == Counters(1, 1, 1, 1, 1, 1)
    {
      patients, doctors, examinations := map[], map[], map[];
      histories, images, prescriptions := map[], map[], map[];
      nextPatientId, nextDoctorId, nextExaminationId := 1, 1, 1;
      nextHistoryId, nextImageId, nextPrescriptionId := 1, 1, 1;
    }

    // ---- Add: the store draws the next identity and inserts the row.
    // A row the database constraints refuse raises DbUpdateException, which
    // the repository lets through (StoreFailure). No row is stored then, but
    // the identity value drawn for it is used up: a sequence never goes back.

    method AddPatient(p: Patient) returns (r: Outcome<Patient>)
      requires Valid()
      modifies this
      ensures Valid()
      ensures (!PatientFits(p) || NationalIdHeld(old(patients), p.personalIdNumber)) ==>
        && r == StoreFailure
        && Snapshot() == old(Snapshot())
        && NextIds() == old(NextIds()).(patient := old(nextPatientId) + 1)
      ensures PatientFits(p) && !NationalIdHeld(old(patients), p.personalIdNumber) ==>
        && r == Ok(p.(id := old(nextPatientId)))
        && Snapshot() == old(Snapshot()).(patients := old(patients)[old(nextPatientId) := r.value])
        && NextIds() == old(NextIds()).(patient := old(nextPatientId) + 1)
    {
      if !PatientFits(p) || NationalIdHeld(patients, p.personalIdNumber) {
        nextPatientId := nextPatientId + 1;
        return StoreFailure;
      }
      var stored := p.(id := nextPatientId);
      patients := patients[nextPatientId := stored];
      nextPatientId := nextPatientId + 1;
      r := Ok(stored);
    }

    method AddDoctor(d: Doctor) returns (r: Outcome<Doctor>)
      requires Valid()
      modifies this
      ensures Valid()
      ensures !DoctorFits(d) ==>
        && r == StoreFailure
        && Snapshot() == old(Snapshot())
        && NextIds() == old(NextIds()).(doctor := old(nextDoctorId) + 1)
      ensures DoctorFits(d) ==>
        && r == Ok(d.(id := old(nextDoctorId)))
        && Snapshot() == old(Snapshot()).(doctors := old(doctors)[old(nextDoctorId) := r.value])
        && NextIds() == old(NextIds()).(doctor := old(nextDoctorId) + 1)
    {
      if !DoctorFits(d) {
        nextDoctorId := nextDoctorId + 1;
        return StoreFailure;
      }
      var stored := d.(id := nextDoctorId);
      doctors := doctors[nextDoctorId := stored];
      nextDoctorId := nextDoctorId + 1;
      r := Ok(stored);
    }

    method AddExamination(e: Examination) returns (r: Outcome<Examination>)
      requires Valid()
      modifies this
      ensures Valid()
      ensures !ExaminationRefsResolve(old(Snapshot()), e) ==>
        && r == StoreFailure
        && Snapshot() == old(Snapshot())
        && NextIds() == old(NextIds()).(examination := old(nextExaminationId) + 1)
      ensures ExaminationRefsResolve(old(Snapshot()), e) ==>
        && r == Ok(e.(id := old(nextExaminationId)))
        && Snapshot() == old(Snapshot()).(examinations := old(examinations)[old(nextExaminationId) := r.value])
        && NextIds() == old(NextIds()).(examination := old(nextExaminationId) + 1)
    {
      if !ExaminationRefsResolve(Snapshot(), e) {
        nextExaminationId := nextExaminationId + 1;
        return StoreFailure;
      }
      var stored := e.(id := nextExaminationId);
      ExaminationInsertConsistent(Snapshot(), stored);
      IdsBelowInsert(examinations, nextExaminationId, stored);
      examinations := examinations[nextExaminationId := stored];
      nextExaminationId := nextExaminationId + 1;
      r := Ok(stored);
    }

    method AddHistory(h: MedicalHistory) returns (r: Outcome<MedicalHistory>)
      requires Valid()
      modifies this
      ensures Valid()
      ensures (!HistoryRefsResolve(old(Snapshot()), h) || !HistoryFits(h)) ==>
        && r == StoreFailure
        && Snapshot() == old(Snapshot())
        && NextIds() == old(NextIds()).(history := old(nextHistoryId) + 1)
      ensures HistoryRefsResolve(old(Snapshot()), h) && HistoryFits(h) ==>
        && r == Ok(h.(id := old(nextHistoryId)))
        && Snapshot() == old(Snapshot()).(histories := old(histories)[old(nextHistoryId) := r.value])
        && NextIds() == old(NextIds()).(history := old(nextHistoryId) + 1)
    {
      if !HistoryRefsResolve(Snapshot(), h) || !HistoryFits(h) {
        nextHistoryId := nextHistoryId + 1;
        return StoreFailure;
      }
      var stored := h.(id := nextHistoryId);
      HistoryInsertConsistent(Snapshot(), stored);
      IdsBelowInsert(histories, nextHistoryId, stored);
      histories := histories[nextHistoryId := stored];
      nextHistoryId := nextHistoryId + 1;
      r := Ok(stored);
    }

    method AddImage(i: MedicalImage) returns (r: Outcome<MedicalImage>)
      requires Valid()
      modifies this
      ensures Valid()
      ensures (!ImageRefsResolve(old(Snapshot()), i) || !ImageFits(i)) ==>
        && r == StoreFailure
        && Snapshot() == old(Snapshot())
        && NextIds() == old(NextIds()).(image := old(nextImageId) + 1)
      ensures ImageRefsResolve(old(Snapshot()), i) && ImageFits(i) ==>
        && r == Ok(i.(id := old(nextImageId)))
        && Snapshot() == old(Snapshot()).(images := old(images)[old(nextImageId) := r.value])
        && NextIds() == old(NextIds()).(image := old(nextImageId) + 1)
    {
      if !ImageRefsResolve(Snapshot(), i) || !ImageFits(i) {
        nextImageId := nextImageId + 1;
        return StoreFailure;
      }
      var stored := i.(id := nextImageId);
      ImageInsertConsistent(Snapshot(), stored);
      IdsBelowInsert(images, nextImageId, stored);
      images := images[nextImageId := stored];
      nextImageId := nextImageId + 1;
      r := Ok(stored);
    }

    method AddPrescription(p: Prescription) returns (r: Outcome<Prescription>)
      requires Valid()
      modifies this
      ensures Valid()
      ensures (!PrescriptionRefsResolve(old(Snapshot()), p) || !PrescriptionFits(p)) ==>
        && r == StoreFailure
        && Snapshot() == old(Snapshot())
        && NextIds() == old(NextIds()).(prescription := old(nextPrescriptionId) + 1)
      ensures PrescriptionRefsResolve(old(Snapshot()), p) && PrescriptionFits(p) ==>
        && r == Ok(p.(id := old(nextPrescriptionId)))
        && Snapshot() == old(Snapshot()).(prescriptions := old(prescriptions)[old(nextPrescriptionId) := r.value])
        && NextIds() == old(NextIds()).(prescription := old(nextPrescriptionId) + 1)
    {
      if !PrescriptionRefsResolve(Snapshot(), p) || !PrescriptionFits(p) {
        nextPrescriptionId := nextPrescriptionId + 1;
        return StoreFailure;
      }
      var stored := p.(id := nextPrescriptionId);
      PrescriptionInsertConsistent(Snapshot(), stored);
      IdsBelowInsert(prescriptions, nextPrescriptionId, stored);
      prescriptions := prescriptions[nextPrescriptionId := stored];
      nextPrescriptionId := nextPrescriptionId + 1;
      r := Ok(stored);
    }

    // ---- Update: replace the whole row stored under the record's id. An
    // absent id is NotFound. A write that loses a race (`raced`, chosen by the
    // environment) or that the constraints refuse is reported as Conflict and
    // nothing is written.

    method UpdatePatient(p: Patient, raced: bool) returns (r: Outcome<()>)
      requires Valid()
      modifies this
      ensures Valid() && NextIds() == old(NextIds())
      ensures p.id !in old(patients) ==> r == NotFound
      ensures (p.id in old(patients) &&
               (raced || !PatientFits(p) || NationalIdHeldByOther(old(patients), p.personalIdNumber, p.id))) ==>
        r == Conflict
      ensures r == Ok(()) <==>
        p.id in old(patients) && !raced && PatientFits(p) &&
        !NationalIdHeldByOther(old(patients), p.personalIdNumber, p.id)
      ensures r.Ok? ==> Snapshot() == old(Snapshot()).(patients := old(patients)[p.id := p])
      ensures !r.Ok? ==> unchanged(this)
    {
      if p.id !in patients {
        return NotFound;
      }
      if raced || !PatientFits(p) || NationalIdHeldByOther(patients, p.personalIdNumber, p.id) {
        return Conflict;
      }
      patients := patients[p.id := p];
      r := Ok(());
    }

    method UpdateDoctor(d: Doctor, raced: bool) returns (r: Outcome<()>)
      requires Valid()
      modifies this
      ensures Valid() && NextIds() == old(NextIds())
      ensures d.id !in old(doctors) ==> r == NotFound
      ensures d.id in old(doctors) && (raced || !DoctorFits(d)) ==> r == Conflict
      ensures r == Ok(()) <==> d.id in old(doctors) && !raced && DoctorFits(d)
      ensures r.Ok? ==> Snapshot() == old(Snapshot()).(doctors := old(doctors)[d.id := d])
      ensures !r.Ok? ==> unchanged(this)
    {
      if d.id !in doctors {
        return NotFound;
      }
      if raced || !DoctorFits(d) {
        return Conflict;
      }
      doctors := doctors[d.id := d];
      r := Ok(());
    }

    method UpdateExamination(e: Examination, raced: bool) returns (r: Outcome<()>)
      requires Valid()
      modifies this
      ensures Valid() && NextIds() == old(NextIds())
      ensures e.id !in old(examinations) ==> r == NotFound
      ensures e.id in old(examinations) && (raced || !ExaminationRefsResolve(old(Snapshot()), e)) ==>
        r == Conflict
      ensures r == Ok(()) <==> e.id in old(examinations) && !raced && ExaminationRefsResolve(old(Snapshot()), e)
      ensures r.Ok? ==> Snapshot() == old(Snapshot()).(examinations := old(examinations)[e.id := e])
      ensures !r.Ok? ==> unchanged(this)
    {
      if e.id !in examinations {
        return NotFound;
      }
      if raced || !ExaminationRefsResolve(Snapshot(), e) {
        return Conflict;
      }
      examinations := examinations[e.id := e];
      r := Ok(());
    }

    method UpdateHistory(h: MedicalHistory, raced: bool) returns (r: Outcome<()>)
      requires Valid()
      modifies this
      ensures Valid() && NextIds() == old(NextIds())
      ensures h.id !in old(histories) ==> r == NotFound
      ensures h.id in old(histories) && (raced || !HistoryRefsResolve(old(Snapshot()), h) || !HistoryFits(h)) ==>
        r == Conflict
      ensures r == Ok(()) <==>
        h.id in old(histories) && !raced && HistoryRefsResolve(old(Snapshot()), h) && HistoryFits(h)
      ensures r.Ok? ==> Snapshot() == old(Snapshot()).(histories := old(histories)[h.id := h])
      ensures !r.Ok? ==> unchanged(this)
    {
      if h.id !in histories {
        return NotFound;
      }
      if raced || !HistoryRefsResolve(Snapshot(), h) || !HistoryFits(h) {
        return Conflict;
      }
      histories := histories[h.id := h];
      r := Ok(());
    }

    method UpdatePrescription(p: Prescription, raced: bool) returns (r: Outcome<()>)
      requires Valid()
      modifies this
      ensures Valid() && NextIds() == old(NextIds())
      ensures p.id !in old(prescriptions) ==> r == NotFound
      ensures (p.id in old(prescriptions) &&
               (raced || !PrescriptionRefsResolve(old(Snapshot()), p) || !PrescriptionFits(p))) ==>
        r == Conflict
      ensures r == Ok(()) <==>
        p.id in old(prescriptions) && !raced && PrescriptionRefsResolve(old(Snapshot()), p) && PrescriptionFits(p)
      ensures r.Ok? ==> Snapshot() == old(Snapshot()).(prescriptions := old(prescriptions)[p.id := p])
      ensures !r.Ok? ==> unchanged(this)
    {
      if p.id !in prescriptions {
        return NotFound;
      }
      if raced || !PrescriptionRefsResolve(Snapshot(), p) || !PrescriptionFits(p) {
        return Conflict;
      }
      prescriptions := prescriptions[p.id := p];
      r := Ok(());
    }

    // ---- Delete: remove the row and apply the declared delete rule. A row
    // that is already gone, or a doctor the restrict rule protects, makes
    // SaveChanges fail (StoreFailure) and nothing is removed.

    method DeletePatient(id: int) returns (r: Outcome<()>)
      requires Valid()
      modifies this
      ensures Valid() && NextIds() == old(NextIds())
      ensures id !in old(patients) ==> r == StoreFailure && unchanged(this)
      ensures id in old(patients) ==> r == Ok(()) && Snapshot() == PatientCascade(old(Snapshot()), id)
    {
      if id !in patients {
        return StoreFailure;
      }
      var before := Snapshot();
      PatientCascadeConsistent(before, id);
      var t := PatientCascade(before, id);
      IdsBelowShrink(patients, t.patients, nextPatientId);
      IdsBelowShrink(examinations, t.examinations, nextExaminationId);
      IdsBelowShrink(histories, t.histories, nextHistoryId);
      IdsBelowShrink(images, t.images, nextImageId);
      IdsBelowShrink(prescriptions, t.prescriptions, nextPrescriptionId);
      patients, examinations, histories := t.patients, t.examinations, t.histories;
      images, prescriptions := t.images, t.prescriptions;
      assert Snapshot() == t;
      r := Ok(());
    }

    method DeleteDoctor(id: int) returns (r: Outcome<()>)
      requires Valid()
      modifies this
      ensures Valid() && NextIds() == old(NextIds())
      ensures (id !in old(doctors) || DoctorReferenced(old(Snapshot()), id)) ==>
        r == StoreFailure && unchanged(this)
      ensures id in old(doctors) && !DoctorReferenced(old(Snapshot()), id) ==>
        r == Ok(()) && Snapshot() == old(Snapshot()).(doctors := old(doctors) - {id})
    {
      if id !in doctors || DoctorReferenced(Snapshot(), id) {
        return StoreFailure;
      }
      doctors := doctors - {id};
      r := Ok(());
    }

    method DeleteExamination(id: int) returns (r: Outcome<()>)
      requires Valid()
      modifies this
      ensures Valid() && NextIds() == old(NextIds())
      ensures id !in old(examinations) ==> r == StoreFailure && unchanged(this)
      ensures id in old(examinations) ==> r == Ok(()) && Snapshot() == ExaminationCascade(old(Snapshot()), id)
    {
      if id !in examinations {
        return StoreFailure;
      }
      ExaminationCascadeExact(Snapshot(), id);
      var t := ExaminationCascade(Snapshot(), id);
      examinations, images, prescriptions := t.examinations, t.images, t.prescriptions;
      r := Ok(());
    }

    method DeleteHistory(id: int) returns (r: Outcome<()>)
      requires Valid()
      modifies this
      ensures Valid() && NextIds() == old(NextIds())
      ensures id !in old(histories) ==> r == StoreFailure && unchanged(this)
      ensures id in old(histories) ==>
        r == Ok(()) && Snapshot() == old(Snapshot()).(histories := old(histories) - {id})
    {
      if id !in histories {
        return StoreFailure;
      }
      histories := histories - {id};
      r := Ok(());
    }

    method DeleteImage(id: int) returns (r: Outcome<()>)
      requires Valid()
      modifies this
      ensures Valid() && NextIds() == old(NextIds())
      ensures id !in old(images) ==> r == StoreFailure && unchanged(this)
      ensures id in old(images) ==>
        r == Ok(()) && Snapshot() == old(Snapshot()).(images := old(images) - {id})
    {
      if id !in images {
        return StoreFailure;
      }
      images := images - {id};
      r := Ok(());
    }

    method DeletePrescription(id: int) returns (r: Outcome<()>)
      requires Valid()
      modifies this
      ensures Valid() && NextIds() == old(NextIds())
      ensures id !in old(prescriptions) ==> r == StoreFailure && unchanged(this)
      ensures id in old(prescriptions) ==>
        r == Ok(()) && Snapshot() == old(Snapshot()).(prescriptions := old(prescriptions) - {id})
    {
      if id !in prescriptions {
        return StoreFailure;
      }
      prescriptions := prescriptions - {id};
      r := Ok(());
    }
  }
}

=== FILE: tabular.dfy ===
/** Query building blocks over a table held as a map from id to row: the
    table in store order (ascending id), restriction by a predicate (Where),
    and a descending sort by an integer key (OrderByDescending). */
module Tabular {
  import opened Dates

  lemma NonEmptyHasElement(s: set<int>)
    requires s != {}
    ensures exists x :: x in s
  {
    if forall x :: x !in s {
      assert false;
    }
  }

  /** m is the least element of s. */
  predicate IsLeast(s: set<int>, m: int)
  {
    m in s && forall x :: x in s ==> m <= x
  }

  lemma {:induction false} MinExists(s: set<int>)
    requires s != {}
    ensures exists m :: IsLeast(s, m)
    decreases |s|
  {
    NonEmptyHasElement(s);
    var y :| y in s;
    if s == {y} {
      assert IsLeast(s, y);
    } else {
      var rest := s - {y};
      MinExists(rest);
      var m :| IsLeast(rest, m);
      assert forall x :: x in s ==> x == y || x in rest;
      if y < m {
        assert IsLeast(s, y);
      } else {
        assert IsLeast(s, m);
      }
    }
  }

  function MinOf(s: set<int>): (m: int)
    requires s != {}
    ensures m in s && forall x :: x in s ==> m <= x
  {
    MinExists(s);
    var m :| IsLeast(s, m);
    m
  }

  /** The ids of a table in ascending order, each once. */
  function SortedKeys(keys: set<int>): (r: seq<int>)
    ensures |r| == |keys|
    ensures forall k :: k in r <==> k in keys
    ensures forall i, j :: 0 <= i < j < |r| ==> r[i] < r[j]
    decreases |keys|
  {
    if keys == {} then []
    else
      var k := MinOf(keys);
      [k] + SortedKeys(keys - {k})
  }

  /** x is stored in the table under some id. */
  ghost predicate IsRowOf<T>(m: map<int, T>, x: T)
  {
    exists k :: k in m && m[k] == x
  }

  /** The rows of a table in store order (ascending id). */
  function Rows<T>(m: map<int, T>): (r: seq<T>)
    ensures |r| == |m|
    ensures forall i :: 0 <= i < |r| ==> IsRowOf(m, r[i])
    ensures forall k :: k in m ==> m[k] in r
  {
    var ks := SortedKeys(m.Keys);
    var r := seq(|ks|, i requires 0 <= i < |ks| => m[ks[i]]);
    assert forall k :: k in m ==> m[k] in r by {
      forall k | k in m ensures m[k] in r {
        var i :| 0 <= i < |ks| && ks[i] == k;
        assert r[i] == m[k];
      }
    }
    assert forall i :: 0 <= i < |r| ==> IsRowOf(m, r[i]) by {
      forall i | 0 <= i < |r| ensures IsRowOf(m, r[i]) {
        assert ks[i] in m && m[ks[i]] == r[i];
      }
    }
    assert |m.Keys| == |m|;
    r
  }

  /** The sub-table of the rows satisfying p (LINQ Where). */
  function Where<T>(m: map<int, T>, p: T -> bool): (w: map<int, T>)
    ensures forall k :: k in w <==> k in m && p(m[k])
    ensures forall k :: k in w ==> w[k] == m[k]
  {
    map k | k in m && p(m[k]) :: m[k]
  }

  /** The ids of the rows satisfying p. */
  function KeysWhere<T>(m: map<int, T>, p: T -> bool): (ks: set<int>)
    ensures forall k :: k in ks <==> k in m && p(m[k])
  {
    set k | k in m && p(m[k])
  }

  /** The sub-table has one row per id satisfying p. */
  lemma WhereSize<T>(m: map<int, T>, p: T -> bool)
    ensures |Where(m, p)| == |KeysWhere(m, p)|
  {
    var w := Where(m, p);
    assert w.Keys == KeysWhere(m, p);
    assert |w.Keys| == |w|;
  }

  /** The rows of the sub-table are the rows of the table that satisfy p. */
  lemma WhereRows<T>(m: map<int, T>, p: T -> bool, x: T)
    ensures IsRowOf(Where(m, p), x) <==> IsRowOf(m, x) && p(x)
  {
    var w := Where(m, p);
    if IsRowOf(w, x) {
      var k :| k in w && w[k] == x;
      assert k in m && m[k] == x;
    }
    if IsRowOf(m, x) && p(x) {
      var k :| k in m && m[k] == x;
      assert k in w && w[k] == x;
    }
  }

  /** A row appears in a table's rows exactly when it is stored in the table. */
  lemma InRowsIffRowOf<T>(m: map<int, T>, x: T)
    ensures x in Rows(m) <==> IsRowOf(m, x)
  {
    var r := Rows(m);
    if x in r {
      var i :| 0 <= i < |r| && r[i] == x;
    }
    if IsRowOf(m, x) {
      var k :| k in m && m[k] == x;
    }
  }

  predicate SortedDescending<T>(s: seq<T>, key: T -> int)
  {
    forall i, j :: 0 <= i < j < |s| ==> key(s[i]) >= key(s[j])
  }

  /** In a list sorted by non-increasing key no later row has a larger key
      than the head. */
  lemma TailBelowHead<T>(s: seq<T>, key: T -> int, y: T)
    requires SortedDescending(s, key) && |s| > 0
    requires y in s[1..]
    ensures key(y) <= key(s[0])
  {
    var k :| 0 <= k < |s[1..]| && s[1..][k] == y;
    assert s[k + 1] == y;
  }

  /** Puts x in front of the first row whose key is smaller, so rows with equal
      keys keep their relative order. */
  function InsertDescending<T>(x: T, s: seq<T>, key: T -> int): seq<T>
  {
    if s == [] || key(x) >= key(s[0]) then [x] + s
    else [s[0]] + InsertDescending(x, s[1..], key)
  }

  /** Insertion adds exactly the inserted row. */
  lemma {:induction false} InsertDescendingPermutes<T>(x: T, s: seq<T>, key: T -> int)
    ensures multiset(InsertDescending(x, s, key)) == multiset(s) + multiset{x}
  {
    if s != [] && key(x) < key(s[0]) {
      assert s == [s[0]] + s[1..];
      InsertDescendingPermutes(x, s[1..], key);
    }
  }

  /** Insertion into a list sorted by non-increasing key keeps it sorted. */
  lemma {:induction false} InsertDescendingSorted<T>(x: T, s: seq<T>, key: T -> int)
    requires SortedDescending(s, key)
    ensures SortedDescending(InsertDescending(x, s, key), key)
  {
    if s != [] && key(x) < key(s[0]) {
      var rest := InsertDescending(x, s[1..], key);
      InsertDescendingSorted(x, s[1..], key);
      InsertDescendingPermutes(x, s[1..], key);
      var r := [s[0]] + rest;
      forall i | 0 < i < |r| ensures key(r[i]) <= key(s[0]) {
        var y := r[i];
        assert y == rest[i - 1] && y in multiset(rest);
        if y != x {
          assert y in multiset(s[1..]);
          TailBelowHead(s, key, y);
        }
      }
    }
  }

  /** LINQ OrderByDescending by an integer key: a permutation of the input,
      in non-increasing key order. */
  function SortDescending<T>(s: seq<T>, key: T -> int): (r: seq<T>)
    ensures multiset(r) == multiset(s)
    ensures SortedDescending(r, key)
  {
    if s == [] then []
    else
      var rest := SortDescending(s[1..], key);
      InsertDescendingPermutes(s[0], rest, key);
      InsertDescendingSorted(s[0], rest, key);
      assert s == [s[0]] + s[1..];
      InsertDescending(s[0], rest, key)
  }

  /** Sorting keeps the number of rows. */
  lemma SortedRowsSize<T>(w: map<int, T>, key: T -> int)
    ensures |SortDescending(Rows(w), key)| == |w|
  {
    var r := SortDescending(Rows(w), key);
    assert |r| == |multiset(r)| == |multiset(Rows(w))| == |Rows(w)|;
  }

  /** A sorted query result holds exactly the rows of the sub-table. */
  lemma SortedRowsExactly<T>(w: map<int, T>, key: T -> int, x: T)
    ensures x in SortDescending(Rows(w), key) <==> IsRowOf(w, x)
  {
    var r := SortDescending(Rows(w), key);
    assert x in r <==> x in multiset(r);
    assert x in Rows(w) <==> x in multiset(Rows(w));
    InRowsIffRowOf(w, x);
  }

  /** Where followed by OrderByDescending: the rows satisfying p, one per id,
      in non-increasing key order. */
  function OrderedWhere<T(==,!new)>(m: map<int, T>, p: T -> bool, key: T -> int): (r: seq<T>)
    ensures SortedDescending(r, key)
    ensures |r| == |KeysWhere(m, p)|
    ensures forall x :: x in r <==> IsRowOf(m, x) && p(x)
  {
    var w := Where(m, p);
    var r := SortDescending(Rows(w), key);
    assert forall x :: x in r <==> IsRowOf(m, x) && p(x) by {
      forall x ensures x in r <==> IsRowOf(m, x) && p(x) {
        SortedRowsExactly(w, key, x);
        WhereRows(m, p, x);
      }
    }
    SortedRowsSize(w, key);
    WhereSize(m, p);
    r
  }

  /** Later instants first: no row is earlier than a row after it. */
  ghost predicate NewestFirst<T>(s: seq<T>, at: T -> DateTime)
  {
    forall i, j :: 0 <= i < j < |s| ==> !Earlier(at(s[i]), at(s[j]))
  }

  /** Where followed by OrderByDescending on a DateTime column. */
  function OrderedByDate<T(==,!new)>(m: map<int, T>, p: T -> bool, at: T -> DateTime): (r: seq<T>)
    ensures NewestFirst(r, at)
    ensures |r| == |KeysWhere(m, p)|
    ensures forall x :: x in r <==> IsRowOf(m, x) && p(x)
  {
    var key := x => Ordinal(at(x));
    var r := OrderedWhere(m, p, key);
    assert NewestFirst(r, at) by {
      forall i, j | 0 <= i < j < |r| ensures !Earlier(at(r[i]), at(r[j])) {
        assert key(r[i]) >= key(r[j]);
        assert Ordinal(at(r[i])) >= Ordinal(at(r[j]));
        OrdinalIsChronological(at(r[i]), at(r[j]));
      }
    }
    r
  }

  /** OrderByDescending on a DateTime column over the whole table. */
  function AllByDate<T(==,!new)>(m: map<int, T>, at: T -> DateTime): (r: seq<T>)
    ensures NewestFirst(r, at)
    ensures |r| == |m|
    ensures forall x :: x in r <==> IsRowOf(m, x)
  {
    var p := (x: T) => true;
    var r := OrderedByDate(m, p, at);
    assert KeysWhere(m, p) == m.Keys;
    assert |m.Keys| == |m|;
    r
  }
}

=== FILE: text.dfy ===
/** The string predicates the services rely on: blank test
    (string.IsNullOrWhiteSpace), digit test, lower-casing and substring
    search (string.Contains). */
module Text {

  /** char.IsWhiteSpace: the Unicode space, line and paragraph separators,
      the control characters U+0009..U+000D, U+0085 and U+00A0. */
  predicate IsWhiteSpace(c: char)
  {
    || ('\t' <= c <= '\r')
    || c == ' '
    || c == '\U{0085}'
    || c == '\U{00A0}'
    || c == '\U{1680}'
    || ('\U{2000}' <= c <= '\U{200A}')
    || c == '\U{2028}'
    || c == '\U{2029}'
    || c == '\U{202F}'
    || c == '\U{205F}'
    || c == '\U{3000}'
  }

  /** string.IsNullOrWhiteSpace for a non-null string. */
  predicate IsBlank(s: string)
  {
    forall i :: 0 <= i < |s| ==> IsWhiteSpace(s[i])
  }

  predicate IsDigit(c: char)
  {
    '0' <= c <= '9'
  }

  predicate AllDigits(s: string)
  {
    forall i :: 0 <= i < |s| ==> IsDigit(s[i])
  }

  function ToLowerChar(c: char): (l: char)
    ensures !('A' <= l <= 'Z')
    ensures !('A' <= c <= 'Z') ==> l == c
  {
    if 'A' <= c <= 'Z' then (c as int + 32) as char else c
  }

  /** string.ToLower on the ASCII letters. */
  function ToLower(s: string): (r: string)
    ensures |r| == |s|
    ensures forall i :: 0 <= i < |s| ==> r[i] == ToLowerChar(s[i])
  {
    seq(|s|, i requires 0 <= i < |s| => ToLowerChar(s[i]))
  }

  /** Lower-casing twice changes nothing more than lower-casing once. */
  lemma ToLowerIdempotent(s: string)
    ensures ToLower(ToLower(s)) == ToLower(s)
  {
    assert forall i :: 0 <= i < |s| ==> ToLowerChar(ToLowerChar(s[i])) == ToLowerChar(s[i]);
  }

  predicate IsPrefix(needle: string, hay: string)
  {
    |needle| <= |hay| && hay[..|needle|] == needle
  }

  /** string.Contains: needle occurs somewhere in hay (the empty string occurs
      everywhere). */
  predicate Contains(hay: string, needle: string)
    decreases |hay|
  {
    IsPrefix(needle, hay) || (|hay| > 0 && Contains(hay[1..], needle))
  }

  /** needle occurs in hay starting at position i. */
  predicate OccursAt(hay: string, needle: string, i: int)
  {
    0 <= i && i + |needle| <= |hay| && hay[i..i + |needle|] == needle
  }

  /** Contains agrees with the positional definition of an occurrence. */
  lemma {:induction false} ContainsIffOccursAt(hay: string, needle: string)
    ensures Contains(hay, needle) <==> exists i :: OccursAt(hay, needle, i)
    decreases |hay|
  {
    if IsPrefix(needle, hay) {
      assert OccursAt(hay, needle, 0);
    }
    if |hay| > 0 {
      ContainsIffOccursAt(hay[1..], needle);
      if Contains(hay[1..], needle) {
        var i :| OccursAt(hay[1..], needle, i);
        assert hay[i + 1..i + 1 + |needle|] == hay[1..][i..i + |needle|];
        assert OccursAt(hay, needle, i + 1);
      }
      if exists i :: OccursAt(hay, needle, i) {
        var i :| OccursAt(hay, needle, i);
        if i > 0 {
          assert hay[1..][i - 1..i - 1 + |needle|] == hay[i..i + |needle|];
          assert OccursAt(hay[1..], needle, i - 1);
        }
      }
    }
  }
}
